=== FILE: README.md ===
# Skip list

A Dafny model of `SkipList` from `src/SkipList.java`: an ordered map kept as
a skip list. A head sentinel `front` has `INITIAL_HEIGHT` (16) forward links.
Every other node has a key, a value and between 1 and 16 forward links.

The model keeps the list's nodes in an arena, a sequence of `SLNode` values
in which `nodes[0]` is `front`. A link is the arena index of the next node
on that level, or `NIL` (Java's `null`). The `SkipList` class holds the
arena, `size` and `height` as fields, which its methods update in place.

A ghost field `Lanes` lists, for each level, the arena indices reachable
from the head at that level, in chain order. The representation invariant
`Shape.Shaped` requires that:

- each chain follows its lane and ends in `NIL`;
- keys strictly increase along every lane;
- a node is on exactly the levels below its own height;
- the levels at or above `height` are empty.

The abstract value of a list is the ascending sequence of (key, value)
entries along level 0 (`SkipList.Entries`) and the map it denotes
(`SkipList.Model`).

Modules:

- `SkipNodes` (`nodes.dfy`): `SLNode` with `next`, `setNext` and
  `getHeight` as `Next`, `SetNext` and `Height`. Also the node constructor
  `NewNode`, the comparator `Precede`, and the constants.
- `Outcomes` (`outcomes.dfy`): `Option`, and `Result` with the faults the
  Java code raises.
- `SortedMap` (`sorted_map.dfy`): sorted entry sequences and the maps they
  denote, with the insertion, removal and replacement lemmas.
- `Shape` (`shape.dfy`): the representation invariant, and the effect of
  one link change on one level.
- `Descent` (`descent.dfy`): the descending predecessor search of `remove`.
- `Relink` (`relink.dfy`): splicing a node into, and unlinking it from,
  every level it takes part in.
- `Shrink` (`shrink.dfy`): the height recompute at the end of `remove`.
- `SkipLists` (`skiplist.dfy`): the operations of the map, the `SkipList`
  class and its iterators.

The loops of the Java code stay loops:

- the search descent (`ScanLevel` inside `FindPredecessors`);
- the link updates of the splice and of the unlink (`LinkIn`, `LinkOut`);
- the height recompute (`LeadingLevels`);
- the node constructor (`NewNode`);
- the head initialisation in the list constructor;
- the `forEach` iteration (`ForEach`).

Each of these is proved against a specification. The class methods
delegate to module-level methods on the arena (`Locate`, `InsertAbsent`,
`Overwrite`, `RemoveFrom`, …) whose contracts relate the new arena to the
old one through `ModelOf`.

Keys are integers ordered by `<`, which stands for the Java
`Comparator`. Where the Java code stores `null`, the model uses `NIL`, or
`None` for the key of `remove`.

## Model

| member | source | states |
|---|---|---|
| SkipNodes.SLNode.Height | src/SkipList.java:402-404 | the height is the number of forward links; `NewNode` sets it to `n` and `SetNext` keeps it, so every level below it can be read |
| SkipNodes.SLNode.Next | src/SkipList.java:392-395 | the link stored at level `i`, defined for every level below the node's height |
| SkipNodes.Precede | src/SkipList.java:341-343 | a key precedes another exactly when it is smaller: the comparator's strict order, `<` on integer keys |
| SkipNodes.PrecedeStrictTotal | src/SkipList.java:341-343 | `precede` is irreflexive, asymmetric and transitive, and two keys neither of which precedes the other are equal |
| SkipNodes.NewNode | src/SkipList.java:379-386 | the new node has the given key and value, `n` links, and every link is absent |
| SkipNodes.SLNode.SetNext | src/SkipList.java:398-400 | only link `i` changes, to the given node; the key, value, height and every other link stay |
| Descent.ScanLevel | src/SkipList.java:173-176 | advancing along one level while the next key precedes the target stops at the level's split point: every earlier node precedes the key, every later one does not, and the node returned is the one just before the split |
| Descent.DescendLevel | src/SkipList.java:172-177 | the node a level's scan ends on is that level's predecessor of the key, and it is also on the level below, so the next scan may start from it |
| Descent.RecordLevel | src/SkipList.java:172-178 | recording one level's predecessor in `update` keeps every level recorded so far correct |
| Descent.FindPredecessors | src/SkipList.java:169-179 | for every level below `height`, `update[level]` is the last node of that level whose key precedes the target (the head if none does); the node reached at the end is level 0's predecessor |
| SortedMap.SplitDecides | src/SkipList.java:181 | after the search, the key is bound exactly when the level-0 node after the predecessor holds it, and then its value is that node's |
| SkipLists.Locate | src/SkipList.java:172-182 | the search result: the recorded predecessors, the level-0 successor, and `found` exactly when the key is in the map (with its value); when not found, no level-0 node holds the key |
| Shape.SpliceLevel | src/SkipList.java:121-124 | pointing the predecessor at the new node, which already links to the predecessor's old successor, inserts the node into that level's chain at the split point |
| Relink.LinkAt | src/SkipList.java:121-124 | one level of the splice: that level's lane gains the new node at the split point, and every chain stays linked |
| Relink.LinkIn | src/SkipList.java:120-124 | after the loop over the new node's height, each level below it holds the node at its split point; every other level is untouched |
| Relink.SplicedShape | src/SkipList.java:113-124 | after the splice the list is shaped again, with height the larger of the old height and the new node's |
| Relink.Splice | src/SkipList.java:113-124 | inserting a node of height `h` for an absent key: a shaped list whose level-0 entries are the old ones with `(key, value)` inserted at the key's place, and whose height is the larger of the two |
| SortedMap.MapOfInsert | src/SkipList.java:120-124 | inserting an entry for a new key anywhere adds exactly that binding to the map |
| SkipLists.PadPredecessors | src/SkipList.java:113-117 | the predecessors of a new node of height `h`: on the levels the list already uses, those the search recorded; on the levels from the list's height up to `h`, the head |
| SkipLists.InsertedHeights | src/SkipList.java:120 | the new node gives its key the height `h`, and every key already bound keeps its node's height |
| SkipLists.InsertAbsent | src/SkipList.java:104-124 | `set` of an absent key: the map gains `key := value`, there is one more node, and the height grows to `h` if it was lower. The key's node has height `h`, and every other key keeps its node's height |
| SortedMap.MapOfReplace | src/SkipList.java:110-111 | overwriting one entry's value rebinds its key and nothing else |
| SkipLists.Overwrite | src/SkipList.java:110-111 | `set` of a bound key overwrites its node's value in place: the map is rebound at that key, and no node is created; every key keeps its node's height |
| SkipLists.SkipList.Set | src/SkipList.java:98-130 | after `set`, the map is the old map with `key := value`. The previous value is returned (`None` if the key was absent). A bound key keeps the arena size, lanes, size and height; an absent key adds one node and one to `size`, and the height becomes the larger of the old height and `h`. The new key's node has height `h`, and every key already bound keeps its node's height |
| SkipLists.SkipList.Get | src/SkipList.java:135-142 | the value bound to the key, and `KeyNotFound` exactly when the key is absent |
| SkipLists.SkipList.ContainsKey | src/SkipList.java:150-157 | true exactly when the key is bound |
| SkipLists.CountIsSize | src/SkipList.java:145-147 | the level-0 entries are strictly ascending, and there are as many level-0 nodes as bound keys |
| SkipLists.SkipList.Size | src/SkipList.java:145-147 | `size` is the number of bound keys |
| Shape.UnlinkLevel | src/SkipList.java:191 | pointing a level's predecessor past its successor takes exactly that node out of the level's chain |
| Relink.LinkPast | src/SkipList.java:189-191 | one level of the unlink: that level's lane loses the node after the predecessor, and every chain stays linked |
| Relink.LinkOut | src/SkipList.java:187-193 | after the loop over the removed node's height, each level below it has lost that node at its split point, and every other level is untouched. The predecessor is never the removed node itself, so the special case of line 188 never arises |
| Relink.UnlinkedShape | src/SkipList.java:184-193 | after the unlink the list is shaped with the same height, and every level holds what it held before except the removed node |
| Relink.Unlink | src/SkipList.java:184-193 | the removed node is the level-0 successor of the predecessor; the new level-0 entries are the old ones with that entry taken out, and no level reaches the node any more |
| SortedMap.MapOfExcise | src/SkipList.java:184-193 | taking one entry out of ascending entries removes exactly its key from the map |
| Shrink.LeadingLevels | src/SkipList.java:195-200 | the recompute loop, with the guard bounded by the 16 head links, returns the number of leading non-empty head levels |
| Shrink.ShrunkShape | src/SkipList.java:195-200 | after the recompute, the list is shaped at the new height. That height is the height of the tallest node left, and it is 0 exactly when the list is empty |
| SkipLists.Reheight | src/SkipList.java:195-201 | when the removed node was at least as tall as the list, the height becomes the number of leading non-empty head levels; otherwise it is unchanged; either way the list stays shaped |
| SkipLists.RemovePresent | src/SkipList.java:183-203 | removing a bound key returns its value and leaves a shaped list whose map lacks exactly that key. There is one node fewer on level 0, no level holds the key, every other key keeps its node's height, and the height is recomputed exactly when the node was as tall as the list |
| SkipLists.RemoveFrom | src/SkipList.java:161-204 | a null key fails before any traversal. On an empty list, or for an absent key, `null` is returned and nothing changes. Otherwise the behaviour of `RemovePresent` |
| SkipLists.SkipList.Remove | src/SkipList.java:161-204 | the same on the object: a null key or an absent key leaves the object unchanged; a bound key is returned with its value, leaves the map and lowers `size` by 1. Every other key keeps its node's height. The height is recomputed from the head's links exactly when the removed node was as tall as the list, and kept otherwise |
| SkipLists.AbsentEverywhere | src/SkipList.java:181-182 | a key the map does not bind is held by no node on any level |
| SkipLists.SkipList.constructor | src/SkipList.java:72-83 | a new list is empty: size 0, height 16, and 16 absent head links |
| SkipLists.SkipList.Nodes | src/SkipList.java:313-319 | the node iterator starts at the first level-0 node; `hasNext` is false exactly when the map is empty |
| SkipLists.NodeIterator.constructor | src/SkipList.java:319 | the cursor is the head's level-0 link, the first node of the chain |
| SkipLists.NodeIterator.HasNext | src/SkipList.java:322-324 | true exactly when some level-0 node has not been returned yet |
| SkipLists.NodeIterator.Next | src/SkipList.java:327-334 | returns the level-0 nodes one at a time in chain order. Once every node has been returned, it fails with `Exhausted` and does not move |
| SkipLists.SkipList.Keys | src/SkipList.java:207-209 | a key iterator over a fresh node iterator at the first node |
| SkipLists.KeyIterator.HasNext | src/SkipList.java:212-214 | true exactly when a key remains |
| SkipLists.KeyIterator.Next | src/SkipList.java:217-219 | the next key in ascending order, or `Exhausted` |
| SkipLists.SkipList.Values | src/SkipList.java:229-231 | a value iterator over a fresh node iterator at the first node |
| SkipLists.ValueIterator.HasNext | src/SkipList.java:234-236 | true exactly when a value remains |
| SkipLists.ValueIterator.Next | src/SkipList.java:239-241 | the next value in ascending key order, or `Exhausted` |
| SkipLists.SkipList.ForEach | src/SkipList.java:251-257 | the pairs handed to the action are strictly ascending in key, denote exactly the map, and number `size` |
| SortedMap.AscendingUnique | src/SkipList.java:251-257 | strictly ascending entries are determined by the map they denote, so the order in which `forEach` visits the entries is fixed by the map alone |

## Left out

- Random node heights (`randomHeight`, `rand`, `prob`): `set` takes the new
  node's height `h` as a parameter with `1 <= h <= 16`. This is the range
  the Java nodes must have for its links to stay within the head's 16.
- The diagnostic counters (`getCounter`, `setCounter`, `removeCounter`),
  `dump` (empty in the Java code) and the `front()` accessor.
- The default comparator on `toString`: keys are integers under `<`.
- The iterators' `remove()`: it forwards to the node iterator, which does
  not define it.
- The `BiConsumer` action of `forEach`: `ForEach` returns the pairs it would
  hand over, in order.
- Null keys are modelled only for `remove`, the one operation that checks
  for them. Null values are not distinguished from other values.
- Aliasing of nodes between lists: the arena belongs to one list.
- Iterators over a changing list: an iterator is valid only while its list
  is unchanged, since its cursor must be the node at its position on level
  0. The Java iterator keeps following level-0 links after a `set` or
  `remove` on its list.
- SkipLists.SkipList.Set: models the evident intent of `set`, not the code
  as written. As written, `set` relies on `search` (lines 277-297), which
  reads the `next` field of a null head link on an empty list. Its insertion
  branch:
  - fills an empty `update` list;
  - draws a height from `rand.nextInt()`;
  - links on levels 1 to `newLevel` rather than 0 to `newLevel - 1`;
  - gives the new node its predecessor's whole link list (line 122)
    rather than the predecessor's link on each level;
  - never raises `height`;
  - never increments `size`.

  The loop at line 105 never decrements `j`: a step right or a value
  store leaves it as it was. When `search` finds the key it returns the
  link list of the node before the match; line 129 then returns the value
  of `node.get(height - 1)`, a successor of the node before the match and
  not necessarily the match (it may also be null), and never stores the
  new value.

  The model searches, then either overwrites the value in place or splices
  in a node of height `h` after the recorded predecessors, with `front` as
  the predecessor on levels at or above `height`. It returns the previous
  value rather than the one just stored.
- SkipLists.SkipList.Get and SkipLists.SkipList.ContainsKey: use the
  descent of `remove` instead of `search`. Besides the null head link it
  reads on an empty list (line 281), `search` reads the key of a null
  node at line 284 whenever a level it scans from the head has fewer than
  two nodes. It also never compares the key of the first node of a level,
  since it always compares the key of the node after the one it stands
  before. For an
  absent key, `get` throws `NullPointerException("null key")`; the model
  returns `Failure(KeyNotFound)` instead.
- SkipLists.SkipList.constructor: the height of a new list is
  `INITIAL_HEIGHT`, as the code sets it. `remove` recomputes the height only
  when the removed node is at least as tall as the list (line 195). Emptying
  the list therefore gives height 0 only when that recompute runs. Otherwise
  the height keeps its old value: a new list that gets one node of height 1,
  which is then removed, stays at height 16.

## Findings

| source | as written | input that shows it | evidently intended | confidence | as-written member | corrected member |
|---|---|---|---|---|---|---|
| src/SkipList.java:197 | the height recompute loops while `newHeight <= INITIAL_HEIGHT && front.next(newHeight) != null` | a list holding two nodes of height 16, a state only the corrected `set` can build, since the written `set` fails on an empty list. `remove` of one of them runs the recompute (the victim is as tall as the list); the other keeps all 16 head links set (`Shrink.TallNodeFillsHead`), so the loop reads `front.next(16)` past the last link and throws `IndexOutOfBoundsException` | stop at `newHeight < INITIAL_HEIGHT`, giving a height of 16 | not executed | Shrink.LeadingLevelsAsWritten | Shrink.LeadingLevels |

=== FILE: descent.dfy ===
/**
 The descending predecessor search shared by every operation of the list:
 from the top level down to level 0, advance along a level while the next
 key precedes the target, then record the node reached as that level's
 predecessor and drop a level.
 */
module Descent {
  import opened SkipNodes
  import opened SortedMap
  import opened Shape

  /** A scan that stops before the first key not preceding `key` ends at the split point. */
  lemma ScanSplit<V>(nodes: seq<SLNode<V>>, lane: seq<nat>, pos: nat, key: int)
    requires Ascending(nodes, lane) && pos <= |lane|
    requires forall j :: 0 <= j < pos ==> nodes[lane[j]].key < key
    requires pos < |lane| ==> key <= nodes[lane[pos]].key
    ensures IsSplit(nodes, lane, pos, key)
  {
  }

  /** On an ascending lane, every node up to one whose key precedes `key` precedes it too. */
  lemma PrefixPrecedes<V>(nodes: seq<SLNode<V>>, lane: seq<nat>, i: nat, key: int)
    requires Ascending(nodes, lane) && i < |lane| && nodes[lane[i]].key < key
    ensures forall j :: 0 <= j <= i ==> nodes[lane[j]].key < key
  {
  }

  /** The facts about one level that the search needs. */
  lemma LevelFacts<V>(nodes: seq<SLNode<V>>, lanes: seq<seq<nat>>, height: int, level: nat)
    requires Shaped(nodes, lanes, height) && level < INITIAL_HEIGHT
    ensures Linked(nodes, lanes[level], level) && Ascending(nodes, lanes[level])
    ensures level >= height ==> lanes[level] == []
  {
  }

  /** A node met on a level is also on the level below. */
  lemma StepDown<V>(nodes: seq<SLNode<V>>, lanes: seq<seq<nat>>, height: int, level: nat, n: nat)
    requires Shaped(nodes, lanes, height) && 0 < level < INITIAL_HEIGHT && n in lanes[level]
    ensures n in lanes[level - 1]
  {
    assert Linked(nodes, lanes[level], level);
    assert n in lanes[0];
  }

  /** `u` is the predecessor of `key` on a lane, and `p` the position after it. */
  ghost predicate Recorded<V>(nodes: seq<SLNode<V>>, lane: seq<nat>, u: nat, p: nat, key: int) {
    IsSplit(nodes, lane, p, key) && u == Before(lane, p)
  }

  /** The inner loop of the search: advance along one level while the next
      key precedes `key`. Starting after position `pos`, it stops at the split
      point of the level and returns the node before it. */
  method ScanLevel<V>(nodes: seq<SLNode<V>>, ghost lane: seq<nat>, level: nat, start: nat, ghost pos: nat, key: int)
    returns (pred: nat, ghost split: nat)
    requires Linked(nodes, lane, level) && Ascending(nodes, lane)
    requires pos <= |lane| && start == Before(lane, pos)
    requires forall j :: 0 <= j < pos ==> nodes[lane[j]].key < key
    ensures pos <= split && Recorded(nodes, lane, pred, split, key)
  {
    pred, split := start, pos;
    LinkBefore(nodes, lane, level, split);
    while nodes[pred].next[level] != NIL && Precede(nodes[nodes[pred].next[level]].key, key)
      invariant pos <= split <= |lane| && pred == Before(lane, split)
      invariant forall j :: 0 <= j < split ==> nodes[lane[j]].key < key
      invariant nodes[pred].next[level] == if split < |lane| then lane[split] else NIL
      decreases |lane| - split
    {
      pred := nodes[pred].next[level];
      split := split + 1;
      LinkBefore(nodes, lane, level, split);
    }
    ScanSplit(nodes, lane, split, key);
  }

  /** One step of the descent: scan level `level` from `pred`, then drop a
      level. The node reached is the level's predecessor of `key`, and it is
      also on the level below. */
  method DescendLevel<V>(nodes: seq<SLNode<V>>, ghost lanes: seq<seq<nat>>, height: int, level: nat, pred: nat, key: int)
    returns (pred': nat, ghost split: nat)
    requires Shaped(nodes, lanes, height) && level < height
    requires pred == FRONT || (pred in lanes[level] && nodes[pred].key < key)
    ensures Recorded(nodes, lanes[level], pred', split, key)
    ensures pred' == FRONT || nodes[pred'].key < key
    ensures level > 0 && pred' != FRONT ==> pred' in lanes[level - 1]
  {
    ghost var lane := lanes[level];
    LevelFacts(nodes, lanes, height, level);
    ghost var pos: nat := 0;
    if pred != FRONT {
      ghost var i :| 0 <= i < |lane| && lane[i] == pred;
      PrefixPrecedes(nodes, lane, i, key);
      pos := i + 1;
    }
    pred', split := ScanLevel(nodes, lane, level, pred, pos, key);
    if pred' != FRONT && level > 0 {
      assert pred' == lane[split - 1];
      StepDown(nodes, lanes, height, level, pred');
    }
  }

  /** Descends one level and records the node reached as that level's entry
      of `update` (and its split point in `splits`). */
  method RecordLevel<V>(nodes: seq<SLNode<V>>, ghost lanes: seq<seq<nat>>, height: int, level: nat, pred: nat,
                        update: seq<nat>, ghost splits: seq<nat>, key: int)
    returns (pred': nat, update': seq<nat>, ghost splits': seq<nat>)
    requires Shaped(nodes, lanes, height) && level < height
    requires |update| == height && |splits| == height
    requires forall m :: level < m < height ==> Recorded(nodes, lanes[m], update[m], splits[m], key)
    requires pred == FRONT || (pred in lanes[level] && nodes[pred].key < key)
    ensures |update'| == height && |splits'| == height && pred' == update'[level]
    ensures forall m :: level <= m < height ==> Recorded(nodes, lanes[m], update'[m], splits'[m], key)
    ensures pred' < |nodes| && (pred' == FRONT || nodes[pred'].key < key)
    ensures level > 0 && pred' != FRONT ==> pred' in lanes[level - 1]
  {
    ghost var split;
    pred', split := DescendLevel(nodes, lanes, height, level, pred, key);
    update' := update[level := pred'];
    splits' := splits[level := split];
  }

  /** The search of `remove`: `update[level]` is, for every level below
      `height`, the last node of that level whose key precedes `key` (or the
      head when there is none); `pred` is the last such node on level 0. */
  method FindPredecessors<V>(nodes: seq<SLNode<V>>, ghost lanes: seq<seq<nat>>, height: int, key: int)
    returns (update: seq<nat>, pred: nat, ghost splits: seq<nat>, ghost at: nat)
    requires Shaped(nodes, lanes, height)
    ensures |update| == height && |splits| == height
    ensures forall l :: 0 <= l < height ==> Recorded(nodes, lanes[l], update[l], splits[l], key)
    ensures Recorded(nodes, lanes[0], pred, at, key)
    ensures height > 0 ==> pred == update[0]
  {
    update := seq(height, _ => FRONT);
    splits := seq(height, _ => 0);
    pred := FRONT;
    var level := height - 1;
    while level >= 0
      invariant -1 <= level < height
      invariant |update| == height && |splits| == height
      invariant forall m :: level < m < height ==> Recorded(nodes, lanes[m], update[m], splits[m], key)
      invariant level >= 0 ==> pred == FRONT || (pred in lanes[level] && nodes[pred].key < key)
    {
      pred, update, splits := RecordLevel(nodes, lanes, height, level, pred, update, splits, key);
      level := level - 1;
    }
    if height == 0 {
      LevelFacts(nodes, lanes, height, 0);
      pred, at := FRONT, 0;
    } else {
      pred, at := update[0], splits[0];
    }
  }
}

=== FILE: nodes.dfy ===
/**
 Nodes of the skip list. A node holds one key, one value and a fixed-length
 list of forward links, one per level it takes part in. Nodes live in an
 arena (a sequence of nodes owned by the list); a link is the arena index of
 the next node on that level, or NIL at the end of the chain.
 */
module SkipNodes {

  /** The initial (and largest) height of a skip list: the head has this many links. */
  const INITIAL_HEIGHT: nat := 16

  /** The absent link (Java's `null`). */
  const NIL: int := -1

  /** Arena index of the head sentinel `front`. */
  const FRONT: nat := 0

  datatype SLNode<V> = SLNode(key: int, value: V, next: seq<int>)
  {
    /** The number of levels the node takes part in (`getHeight`): one per
        forward link, so every level below it has a link to read. `NewNode`
        sets it and `SetNext` keeps it. */
    function Height(): (h: nat)
      ensures h == |next|
    {
      |next|
    }

    /** The forward link at level `i` (`next(i)`): defined on every level
        below the node's height, and one of the node's own links. */
    function Next(i: nat): (link: int)
      requires i < Height()
      ensures link == next[i] && link in next
    {
      next[i]
    }

    /** The node with its level-`i` link replaced (`setNext`); its key, value
        and height never change. */
    function SetNext(i: nat, n: int): (r: SLNode<V>)
      requires i < Height()
      ensures r.key == key && r.value == value && r.Height() == Height()
      ensures r.Next(i) == n
      ensures forall j :: 0 <= j < Height() && j != i ==> r.Next(j) == Next(j)
    {
      this.(next := next[i := n])
    }
  }

  /** A new node of height `n` whose links are all absent (`new SLNode(key, value, n)`). */
  method NewNode<V>(key: int, value: V, n: nat) returns (node: SLNode<V>)
    ensures node.key == key && node.value == value
    ensures node.Height() == n
    ensures forall i :: 0 <= i < n ==> node.Next(i) == NIL
  {
    var links: seq<int> := [];
    for i := 0 to n
      invariant |links| == i
      invariant forall j :: 0 <= j < i ==> links[j] == NIL
    {
      links := links + [NIL];
    }
    node := SLNode(key, value, links);
  }

  /** The ordering the list is kept in (`precede`): the comparator is `<` on keys. */
  predicate Precede(key1: int, key2: int): (b: bool)
    ensures b <==> key1 < key2
  {
    key1 < key2
  }

  /** `Precede` is a strict total order: irreflexive, asymmetric, transitive,
      and two keys neither of which precedes the other are equal. The found
      test of line 181 of the Java `remove` needs the last: a key that does
      not precede the successor the descent stopped before is that
      successor's key. */
  lemma PrecedeStrictTotal(a: int, b: int, c: int)
    ensures !Precede(a, a)
    ensures Precede(a, b) ==> !Precede(b, a)
    ensures Precede(a, b) && Precede(b, c) ==> Precede(a, c)
    ensures !Precede(a, b) && !Precede(b, a) ==> a == b
  {
  }
}

=== FILE: outcomes.dfy ===
/**
 Outcomes of the list's operations: an optional value (Java's nullable
 return) and a result that is either a value or the fault the operation
 raises.
 */
module Outcomes {

  datatype Option<T> = None | Some(value: T)

  /** The exceptions the list's operations raise. */
  datatype Fault =
    | NullKey           // `remove(null)`: the NullPointerException raised before any traversal
    | KeyNotFound       // `get` of an absent key
    | Exhausted         // `next()` on an iterator with nothing left: IllegalStateException
    | IndexOutOfBounds  // a read of a link past the end of a node's link list

  datatype Result<T> = Success(value: T) | Failure(fault: Fault)
}

=== FILE: relink.dfy ===
/**
 The two structural changes of the list: splicing a new node in at each of
 its levels after the predecessors the search recorded (`set` of an absent
 key), and unlinking a node at each of its levels (`remove` of a present key).
 */
module Relink {
  import opened SkipNodes
  import opened SortedMap
  import opened Shape
  import opened Descent

  /** The recorded predecessors of `key` for the levels below `h`. */
  ghost predicate Predecessors<V>(nodes: seq<SLNode<V>>, lanes: seq<seq<nat>>, update: seq<nat>, splits: seq<nat>, h: nat, key: int) {
    && h <= |update| && h <= |splits| && h <= |lanes|
    && forall l :: 0 <= l < h ==> Recorded(nodes, lanes[l], update[l], splits[l], key)
  }

  lemma InsertMembers<T>(s: seq<T>, p: nat, x: T)
    requires p <= |s|
    ensures forall n :: n in Insert(s, p, x) <==> n in s || n == x
  {
    assert Insert(s, p, x) == s[..p] + [x] + s[p..];
    assert s == s[..p] + s[p..];
  }

  lemma ExciseMembers(s: seq<nat>, p: nat)
    requires p < |s| && Distinct(s)
    ensures forall n :: n in Excise(s, p) <==> n in s && n != s[p]
  {
    assert s == s[..p] + [s[p]] + s[p + 1..];
    forall n | n in s && n != s[p]
      ensures n in Excise(s, p)
    {
      var j :| 0 <= j < |s| && s[j] == n;
      if j < p {
        assert Excise(s, p)[j] == n;
      } else {
        assert Excise(s, p)[j - 1] == n;
      }
    }
  }

  /** The arena after a change of links holds the same keys, so a lane stays ascending. */
  lemma AscendingFrame<V>(nodes: seq<SLNode<V>>, nodes': seq<SLNode<V>>, lane: seq<nat>)
    requires Ascending(nodes, lane) && SameEntries(nodes, nodes')
    ensures Ascending(nodes', lane)
  {
  }

  /** Placing a node whose key lies strictly between its neighbours keeps a lane ascending. */
  lemma AscendingInsert<V>(nodes: seq<SLNode<V>>, lane: seq<nat>, p: nat, x: nat, key: int)
    requires Ascending(nodes, lane) && IsSplit(nodes, lane, p, key)
    requires x < |nodes| && nodes[x].key == key
    requires forall j :: 0 <= j < |lane| ==> nodes[lane[j]].key != key
    ensures Ascending(nodes, Insert(lane, p, x))
  {
    var lane' := Insert(lane, p, x);
    forall i, j | 0 <= i < j < |lane'|
      ensures nodes[lane'[i]].key < nodes[lane'[j]].key
    {
      if j < p {
      } else if i > p {
        assert lane'[i] == lane[i - 1] && lane'[j] == lane[j - 1];
      } else if i == p {
        assert lane'[j] == lane[j - 1];
      } else if j == p {
      } else {
        assert lane'[j] == lane[j - 1];
      }
    }
  }

  /** Taking a node out keeps a lane ascending. */
  lemma AscendingExcise<V>(nodes: seq<SLNode<V>>, lane: seq<nat>, p: nat)
    requires Ascending(nodes, lane) && p < |lane|
    ensures Ascending(nodes, Excise(lane, p))
  {
    var lane' := Excise(lane, p);
    forall i, j | 0 <= i < j < |lane'|
      ensures nodes[lane'[i]].key < nodes[lane'[j]].key
    {
      var i' := if i < p then i else i + 1;
      var j' := if j < p then j else j + 1;
      assert lane'[i] == lane[i'] && lane'[j] == lane[j'];
    }
  }

  /** The entries of a lane with a node put in at `p` are the old entries with the node's entry put in at `p`. */
  lemma EntriesInsert<V>(nodes: seq<SLNode<V>>, nodes': seq<SLNode<V>>, lane: seq<nat>, p: nat, x: nat)
    requires InArena(nodes, lane) && SameEntries(nodes, nodes') && p <= |lane| && x < |nodes'|
    ensures InArena(nodes', Insert(lane, p, x))
    ensures EntriesOf(nodes', Insert(lane, p, x)) == Insert(EntriesOf(nodes, lane), p, (nodes'[x].key, nodes'[x].value))
  {
    var lane' := Insert(lane, p, x);
    assert InArena(nodes', lane');
    var e' := EntriesOf(nodes', lane');
    var e := Insert(EntriesOf(nodes, lane), p, (nodes'[x].key, nodes'[x].value));
    assert |e'| == |e|;
    forall j | 0 <= j < |e|
      ensures e'[j] == e[j]
    {
      if j < p {
      } else if j > p {
        assert lane'[j] == lane[j - 1];
      }
    }
  }

  /** The entries of a lane with the node at `p` taken out are the old entries with the entry at `p` taken out. */
  lemma EntriesExcise<V>(nodes: seq<SLNode<V>>, nodes': seq<SLNode<V>>, lane: seq<nat>, p: nat)
    requires InArena(nodes, lane) && SameEntries(nodes, nodes') && p < |lane|
    ensures InArena(nodes', Excise(lane, p))
    ensures EntriesOf(nodes', Excise(lane, p)) == Excise(EntriesOf(nodes, lane), p)
  {
    var lane' := Excise(lane, p);
    var e' := EntriesOf(nodes', lane');
    var e := Excise(EntriesOf(nodes, lane), p);
    assert |e'| == |e|;
    forall j | 0 <= j < |e|
      ensures e'[j] == e[j]
    {
      if j >= p {
        assert lane'[j] == lane[j + 1];
      }
    }
  }

  /** One level of the splice, followed by the proof that it leaves every
      other level's chain as it was. */
  lemma SpliceStep<V>(cur: seq<SLNode<V>>, lanes: seq<seq<nat>>, i: nat, x: nat, u: nat, p: nat)
    requires |lanes| == INITIAL_HEIGHT && i < INITIAL_HEIGHT
    requires forall l :: 0 <= l < INITIAL_HEIGHT ==> Linked(cur, lanes[l], l)
    requires Distinct(lanes[i]) && p <= |lanes[i]| && u == Before(lanes[i], p)
    requires FRONT < x < |cur| && x !in lanes[i] && i < cur[x].Height()
    ensures u < |cur| && i < cur[u].Height()
    ensures var mid := cur[x := cur[x].SetNext(i, cur[u].next[i])];
            var after := mid[u := mid[u].SetNext(i, x)];
            && SameEntries(cur, after) && |after| == |cur|
            && Linked(after, Insert(lanes[i], p, x), i)
            && forall l :: 0 <= l < INITIAL_HEIGHT && l != i ==> Linked(after, lanes[l], l)
  {
    LinkBefore(cur, lanes[i], i, p);
    var link := cur[u].next[i];
    var mid := cur[x := cur[x].SetNext(i, link)];
    var after := mid[u := mid[u].SetNext(i, x)];
    forall l | 0 <= l < INITIAL_HEIGHT && l != i
      ensures Linked(after, lanes[l], l)
    {
      SetNextFrame(cur, lanes[l], l, x, i, link);
      SetNextFrame(mid, lanes[l], l, u, i, x);
    }
    SetNextFrame(cur, lanes[i], i, x, i, link);
    SpliceLevel(mid, lanes[i], i, p, x);
  }

  /** One level of the unlink, followed by the proof that it leaves every
      other level's chain as it was. */
  lemma UnlinkStep<V>(cur: seq<SLNode<V>>, lanes: seq<seq<nat>>, i: nat, u: nat, p: nat)
    requires |lanes| == INITIAL_HEIGHT && i < INITIAL_HEIGHT
    requires forall l :: 0 <= l < INITIAL_HEIGHT ==> Linked(cur, lanes[l], l)
    requires Distinct(lanes[i]) && p < |lanes[i]| && u == Before(lanes[i], p)
    ensures u < |cur| && i < cur[u].Height() && cur[u].next[i] == lanes[i][p]
    ensures lanes[i][p] < |cur| && i < cur[lanes[i][p]].Height()
    ensures var after := cur[u := cur[u].SetNext(i, cur[cur[u].next[i]].next[i])];
            && SameEntries(cur, after) && |after| == |cur|
            && Linked(after, Excise(lanes[i], p), i)
            && forall l :: 0 <= l < INITIAL_HEIGHT && l != i ==> Linked(after, lanes[l], l)
  {
    LinkBefore(cur, lanes[i], i, p);
    var link := cur[lanes[i][p]].next[i];
    var after := cur[u := cur[u].SetNext(i, link)];
    forall l | 0 <= l < INITIAL_HEIGHT && l != i
      ensures Linked(after, lanes[l], l)
    {
      SetNextFrame(cur, lanes[l], l, u, i, link);
    }
    UnlinkLevel(cur, lanes[i], i, p);
  }

  /** The fresh index `|nodes|`, where a new node goes, is on no lane, and no
      lane holds an index twice. */
  lemma FreshLanes<V>(nodes: seq<SLNode<V>>, lanes: seq<seq<nat>>, height: int)
    requires Shaped(nodes, lanes, height)
    ensures forall l :: 0 <= l < INITIAL_HEIGHT ==> Distinct(lanes[l]) && |nodes| !in lanes[l]
  {
    forall l | 0 <= l < INITIAL_HEIGHT
      ensures Distinct(lanes[l]) && |nodes| !in lanes[l]
    {
      LevelFacts(nodes, lanes, height, l);
      AscendingDistinct(nodes, lanes[l]);
    }
  }

  /** The one fact behind every absence argument: a key the level-0 entries
      do not bind is carried by no entry of lane `l`, for any level `l`, since
      every lane's nodes are on level 0. */
  lemma AbsentOnLevel<V>(nodes: seq<SLNode<V>>, lanes: seq<seq<nat>>, height: int, l: nat, key: int)
    requires Shaped(nodes, lanes, height) && l < INITIAL_HEIGHT
    requires key !in MapOf(EntriesOf(nodes, lanes[0]))
    ensures forall j :: 0 <= j < |lanes[l]| ==> nodes[lanes[l][j]].key != key
  {
    LevelFacts(nodes, lanes, height, 0);
    var e := EntriesOf(nodes, lanes[0]);
    MapOfKeys(e, key);
    forall j | 0 <= j < |lanes[l]|
      ensures nodes[lanes[l][j]].key != key
    {
      assert lanes[l][j] in lanes[0];
      var i :| 0 <= i < |lanes[0]| && lanes[0][i] == lanes[l][j];
      assert e[i].0 == nodes[lanes[l][j]].key;
    }
  }

  /** Each level of a list after a new node `x` has been spliced into the
      levels below `h` is ascending, and holds `x` exactly when it is below `h`. */
  lemma SplicedLevels<V>(nodes: seq<SLNode<V>>, lanes: seq<seq<nat>>,
                         nodes': seq<SLNode<V>>, lanes': seq<seq<nat>>, splits: seq<nat>, key: int, h: nat)
    requires |lanes| == INITIAL_HEIGHT && h <= INITIAL_HEIGHT && |splits| >= h
    requires forall l :: 0 <= l < INITIAL_HEIGHT ==> Ascending(nodes, lanes[l])
    requires forall l :: 0 <= l < h ==>
               && splits[l] <= |lanes[l]| && IsSplit(nodes, lanes[l], splits[l], key)
               && forall j :: 0 <= j < |lanes[l]| ==> nodes[lanes[l][j]].key != key
    requires |nodes'| == |nodes| + 1 && SameEntries(nodes, nodes') && nodes'[|nodes|].key == key
    requires |lanes'| == INITIAL_HEIGHT
    requires forall l :: 0 <= l < INITIAL_HEIGHT ==> lanes'[l] == if l < h then Insert(lanes[l], splits[l], |nodes|) else lanes[l]
    ensures forall l :: 0 <= l < INITIAL_HEIGHT ==> Ascending(nodes', lanes'[l])
    ensures forall l, n :: 0 <= l < INITIAL_HEIGHT ==> (n in lanes'[l] <==> n in lanes[l] || (l < h && n == |nodes|))
  {
    forall l | 0 <= l < INITIAL_HEIGHT
      ensures Ascending(nodes', lanes'[l])
      ensures forall n :: n in lanes'[l] <==> n in lanes[l] || (l < h && n == |nodes|)
    {
      AscendingFrame(nodes, nodes', lanes[l]);
      if l < h {
        assert IsSplit(nodes', lanes[l], splits[l], key);
        AscendingInsert(nodes', lanes[l], splits[l], |nodes|, key);
        InsertMembers(lanes[l], splits[l], |nodes|);
      }
    }
  }

  /** A list after a new node of height `h` has been spliced into the levels
      below `h` is shaped, with height the larger of the old one and `h`. */
  lemma SplicedShape<V>(nodes: seq<SLNode<V>>, lanes: seq<seq<nat>>, height: int,
                        nodes': seq<SLNode<V>>, lanes': seq<seq<nat>>, splits: seq<nat>, key: int, h: nat)
    requires Shaped(nodes, lanes, height) && 1 <= h <= INITIAL_HEIGHT && |splits| >= h
    requires key !in MapOf(EntriesOf(nodes, lanes[0]))
    requires forall l :: 0 <= l < h ==> splits[l] <= |lanes[l]| && IsSplit(nodes, lanes[l], splits[l], key)
    requires |nodes'| == |nodes| + 1 && SameEntries(nodes, nodes')
    requires nodes'[|nodes|].key == key && nodes'[|nodes|].Height() == h
    requires |lanes'| == INITIAL_HEIGHT
    requires forall l :: 0 <= l < INITIAL_HEIGHT ==> Linked(nodes', lanes'[l], l)
    requires forall l :: 0 <= l < INITIAL_HEIGHT ==> lanes'[l] == if l < h then Insert(lanes[l], splits[l], |nodes|) else lanes[l]
    ensures Shaped(nodes', lanes', if h > height then h else height)
  {
    AbsentLevels(nodes, lanes, height, key);
    SplicedLevels(nodes, lanes, nodes', lanes', splits, key, h);
    forall l, n | 0 <= l < INITIAL_HEIGHT && n in lanes'[0] && n < |nodes'| && l < nodes'[n].Height()
      ensures n in lanes'[l]
    {
      if n != |nodes| {
        assert n in lanes[0] && n < |nodes|;
      }
    }
  }

  /** `AbsentOnLevel` on every level at once, together with each level's
      ascending order: the two facts `SplicedShape` needs of the levels it
      does not yet know to hold the new node. */
  lemma AbsentLevels<V>(nodes: seq<SLNode<V>>, lanes: seq<seq<nat>>, height: int, key: int)
    requires Shaped(nodes, lanes, height)
    requires key !in MapOf(EntriesOf(nodes, lanes[0]))
    ensures forall l :: 0 <= l < INITIAL_HEIGHT ==>
              && Ascending(nodes, lanes[l])
              && forall j :: 0 <= j < |lanes[l]| ==> nodes[lanes[l][j]].key != key
  {
    forall l | 0 <= l < INITIAL_HEIGHT
      ensures Ascending(nodes, lanes[l])
      ensures forall j :: 0 <= j < |lanes[l]| ==> nodes[lanes[l][j]].key != key
    {
      LevelFacts(nodes, lanes, height, l);
      AbsentOnLevel(nodes, lanes, height, l, key);
    }
  }

  /** One level of the splice: `x` takes over the link of the predecessor
      `u` at level `i`, then `u` links to `x`. */
  method LinkAt<V>(nodes: seq<SLNode<V>>, ghost lanes: seq<seq<nat>>, i: nat, x: nat, u: nat, ghost p: nat)
    returns (nodes': seq<SLNode<V>>, ghost lanes': seq<seq<nat>>)
    requires |lanes| == INITIAL_HEIGHT && i < INITIAL_HEIGHT
    requires forall l :: 0 <= l < INITIAL_HEIGHT ==> Linked(nodes, lanes[l], l)
    requires Distinct(lanes[i]) && p <= |lanes[i]| && u == Before(lanes[i], p)
    requires FRONT < x < |nodes| && x !in lanes[i] && i < nodes[x].Height()
    ensures |nodes'| == |nodes| && SameEntries(nodes, nodes')
    ensures lanes' == lanes[i := Insert(lanes[i], p, x)]
    ensures forall l :: 0 <= l < INITIAL_HEIGHT ==> Linked(nodes', lanes'[l], l)
  {
    SpliceStep(nodes, lanes, i, x, u, p);
    nodes' := nodes[x := nodes[x].SetNext(i, nodes[u].next[i])];
    nodes' := nodes'[u := nodes'[u].SetNext(i, x)];
    lanes' := lanes[i := Insert(lanes[i], p, x)];
  }

  /** The loop of the splice: `x` is linked in on each level below its height. */
  method LinkIn<V>(nodes: seq<SLNode<V>>, ghost lanes: seq<seq<nat>>, update: seq<nat>, ghost splits: seq<nat>, x: nat)
    returns (nodes': seq<SLNode<V>>, ghost lanes': seq<seq<nat>>)
    requires |lanes| == INITIAL_HEIGHT && FRONT < x < |nodes| && nodes[x].Height() <= INITIAL_HEIGHT
    requires forall l :: 0 <= l < INITIAL_HEIGHT ==> Linked(nodes, lanes[l], l) && Distinct(lanes[l]) && x !in lanes[l]
    requires nodes[x].Height() <= |update| && nodes[x].Height() <= |splits|
    requires forall l :: 0 <= l < nodes[x].Height() ==> splits[l] <= |lanes[l]| && update[l] == Before(lanes[l], splits[l])
    ensures |nodes'| == |nodes| && SameEntries(nodes, nodes')
    ensures |lanes'| == INITIAL_HEIGHT
    ensures forall l :: 0 <= l < INITIAL_HEIGHT ==> Linked(nodes', lanes'[l], l)
    ensures forall l :: 0 <= l < INITIAL_HEIGHT ==> lanes'[l] == if l < nodes[x].Height() then Insert(lanes[l], splits[l], x) else lanes[l]
  {
    nodes', lanes' := nodes, lanes;
    for i := 0 to nodes[x].Height()
      invariant |nodes'| == |nodes| && SameEntries(nodes, nodes')
      invariant |lanes'| == INITIAL_HEIGHT
      invariant forall l :: 0 <= l < INITIAL_HEIGHT ==> Linked(nodes', lanes'[l], l)
      invariant forall l :: 0 <= l < INITIAL_HEIGHT ==> lanes'[l] == if l < i then Insert(lanes[l], splits[l], x) else lanes[l]
    {
      nodes', lanes' := LinkAt(nodes', lanes', i, x, update[i], splits[i]);
    }
  }

  /** Splices a new node of height `h` holding `key` and `value` into the
      levels below `h`, after the predecessors the search recorded there (the
      head on the levels the list did not yet use). The new node is the
      level-0 entry at the split point of `key`, and the list's height becomes
      the larger of its old height and `h`. */
  method Splice<V>(nodes: seq<SLNode<V>>, ghost lanes: seq<seq<nat>>, height: int,
                   update: seq<nat>, ghost splits: seq<nat>, key: int, value: V, h: nat)
    returns (nodes': seq<SLNode<V>>, ghost lanes': seq<seq<nat>>)
    requires Shaped(nodes, lanes, height) && 1 <= h <= INITIAL_HEIGHT
    requires Predecessors(nodes, lanes, update, splits, h, key)
    requires key !in MapOf(EntriesOf(nodes, lanes[0]))
    ensures |nodes'| == |nodes| + 1 && SameEntries(nodes, nodes')
    ensures nodes'[|nodes|].key == key && nodes'[|nodes|].value == value && nodes'[|nodes|].Height() == h
    ensures |lanes'| == INITIAL_HEIGHT
    ensures forall l :: 0 <= l < INITIAL_HEIGHT ==> lanes'[l] == if l < h then Insert(lanes[l], splits[l], |nodes|) else lanes[l]
    ensures Shaped(nodes', lanes', if h > height then h else height)
    ensures EntriesOf(nodes', lanes'[0]) == Insert(EntriesOf(nodes, lanes[0]), splits[0], (key, value))
  {
    var node := NewNode(key, value, h);
    var appended := nodes + [node];
    forall l | 0 <= l < INITIAL_HEIGHT
      ensures Linked(appended, lanes[l], l)
    {
      LevelFacts(nodes, lanes, height, l);
      AppendFrame(nodes, lanes[l], l, node);
    }
    FreshLanes(nodes, lanes, height);
    nodes', lanes' := LinkIn(appended, lanes, update, splits, |nodes|);
    SplicedShape(nodes, lanes, height, nodes', lanes', splits, key, h);
    LevelFacts(nodes, lanes, height, 0);
    EntriesInsert(nodes, nodes', lanes[0], splits[0], |nodes|);
  }

  /** The node the search found holds `key` on every level it takes part in,
      and sits there just after the recorded predecessor. */
  lemma VictimAt<V>(nodes: seq<SLNode<V>>, lanes: seq<seq<nat>>, height: int, splits: seq<nat>, key: int, l: nat)
    requires Shaped(nodes, lanes, height) && |splits| >= height
    requires forall m :: 0 <= m < height ==> IsSplit(nodes, lanes[m], splits[m], key)
    requires 0 < height && splits[0] < |lanes[0]| && nodes[lanes[0][splits[0]]].key == key
    requires l < nodes[lanes[0][splits[0]]].Height()
    ensures l < height && splits[l] < |lanes[l]| && lanes[l][splits[l]] == lanes[0][splits[0]]
  {
    var victim := lanes[0][splits[0]];
    LevelFacts(nodes, lanes, height, 0);
    LevelFacts(nodes, lanes, height, l);
    assert victim in lanes[0];
    assert victim in lanes[l];
    assert IsSplit(nodes, lanes[l], splits[l], key);
  }

  /** One level of the unlink: the predecessor `u` at level `i` links past
      the node that follows it. */
  method LinkPast<V>(nodes: seq<SLNode<V>>, ghost lanes: seq<seq<nat>>, i: nat, u: nat, ghost p: nat)
    returns (nodes': seq<SLNode<V>>, ghost lanes': seq<seq<nat>>)
    requires |lanes| == INITIAL_HEIGHT && i < INITIAL_HEIGHT
    requires forall l :: 0 <= l < INITIAL_HEIGHT ==> Linked(nodes, lanes[l], l)
    requires Distinct(lanes[i]) && p < |lanes[i]| && u == Before(lanes[i], p)
    ensures |nodes'| == |nodes| && SameEntries(nodes, nodes')
    ensures lanes' == lanes[i := Excise(lanes[i], p)]
    ensures forall l :: 0 <= l < INITIAL_HEIGHT ==> Linked(nodes', lanes'[l], l)
  {
    UnlinkStep(nodes, lanes, i, u, p);
    nodes' := nodes[u := nodes[u].SetNext(i, nodes[nodes[u].next[i]].next[i])];
    lanes' := lanes[i := Excise(lanes[i], p)];
  }

  /** The loop of the unlink: on each level below the height of `victim`,
      the recorded predecessor links past it. The special case of the Java `remove` for a
      predecessor that is the victim itself cannot arise, since a predecessor
      strictly precedes the key. */
  method LinkOut<V>(nodes: seq<SLNode<V>>, ghost lanes: seq<seq<nat>>, update: seq<nat>, ghost splits: seq<nat>, victim: nat)
    returns (nodes': seq<SLNode<V>>, ghost lanes': seq<seq<nat>>)
    requires |lanes| == INITIAL_HEIGHT && FRONT < victim < |nodes| && nodes[victim].Height() <= INITIAL_HEIGHT
    requires forall l :: 0 <= l < INITIAL_HEIGHT ==> Linked(nodes, lanes[l], l) && Distinct(lanes[l])
    requires nodes[victim].Height() <= |update| && nodes[victim].Height() <= |splits|
    requires forall l :: 0 <= l < nodes[victim].Height() ==>
               splits[l] < |lanes[l]| && lanes[l][splits[l]] == victim && update[l] == Before(lanes[l], splits[l])
    ensures |nodes'| == |nodes| && SameEntries(nodes, nodes')
    ensures |lanes'| == INITIAL_HEIGHT
    ensures forall l :: 0 <= l < INITIAL_HEIGHT ==> Linked(nodes', lanes'[l], l)
    ensures forall l :: 0 <= l < INITIAL_HEIGHT ==> lanes'[l] == if l < nodes[victim].Height() then Excise(lanes[l], splits[l]) else lanes[l]
  {
    nodes', lanes' := nodes, lanes;
    for i := 0 to nodes[victim].Height()
      invariant |nodes'| == |nodes| && SameEntries(nodes, nodes')
      invariant |lanes'| == INITIAL_HEIGHT
      invariant forall l :: 0 <= l < INITIAL_HEIGHT ==> Linked(nodes', lanes'[l], l)
      invariant forall l :: 0 <= l < INITIAL_HEIGHT ==> lanes'[l] == if l < i then Excise(lanes[l], splits[l]) else lanes[l]
    {
      if update[i] == victim {
        assert false;
      }
      nodes', lanes' := LinkPast(nodes', lanes', i, update[i], splits[i]);
    }
  }

  /** Each level of a list after the node `victim` has been taken out of
      the levels below its height is ascending, and holds what it held before
      except `victim`. */
  lemma UnlinkedLevels<V>(nodes: seq<SLNode<V>>, lanes: seq<seq<nat>>,
                          nodes': seq<SLNode<V>>, lanes': seq<seq<nat>>, splits: seq<nat>, victim: nat)
    requires |lanes| == INITIAL_HEIGHT && victim < |nodes| && nodes[victim].Height() <= INITIAL_HEIGHT
    requires forall l :: 0 <= l < INITIAL_HEIGHT ==> Ascending(nodes, lanes[l]) && (l >= nodes[victim].Height() ==> victim !in lanes[l])
    requires nodes[victim].Height() <= |splits|
    requires forall l :: 0 <= l < nodes[victim].Height() ==> splits[l] < |lanes[l]| && lanes[l][splits[l]] == victim
    requires |nodes'| == |nodes| && SameEntries(nodes, nodes')
    requires |lanes'| == INITIAL_HEIGHT
    requires forall l :: 0 <= l < INITIAL_HEIGHT ==> lanes'[l] == if l < nodes[victim].Height() then Excise(lanes[l], splits[l]) else lanes[l]
    ensures forall l :: 0 <= l < INITIAL_HEIGHT ==> Ascending(nodes', lanes'[l])
    ensures forall l, n :: 0 <= l < INITIAL_HEIGHT ==> (n in lanes'[l] <==> n in lanes[l] && n != victim)
  {
    forall l | 0 <= l < INITIAL_HEIGHT
      ensures Ascending(nodes', lanes'[l])
      ensures forall n :: n in lanes'[l] <==> n in lanes[l] && n != victim
    {
      AscendingDistinct(nodes, lanes[l]);
      AscendingFrame(nodes, nodes', lanes[l]);
      if l < nodes[victim].Height() {
        AscendingExcise(nodes', lanes[l], splits[l]);
        ExciseMembers(lanes[l], splits[l]);
      }
    }
  }

  /** A list after the node `victim` has been taken out of every level it was
      on is shaped, with the same height, and no level holds `victim`. */
  lemma UnlinkedShape<V>(nodes: seq<SLNode<V>>, lanes: seq<seq<nat>>, height: int,
                         nodes': seq<SLNode<V>>, lanes': seq<seq<nat>>, splits: seq<nat>, victim: nat)
    requires Shaped(nodes, lanes, height) && |splits| >= height
    requires victim < |nodes| && nodes[victim].Height() <= height
    requires forall l :: 0 <= l < nodes[victim].Height() ==> splits[l] < |lanes[l]| && lanes[l][splits[l]] == victim
    requires |nodes'| == |nodes| && SameEntries(nodes, nodes')
    requires |lanes'| == INITIAL_HEIGHT
    requires forall l :: 0 <= l < INITIAL_HEIGHT ==> Linked(nodes', lanes'[l], l)
    requires forall l :: 0 <= l < INITIAL_HEIGHT ==> lanes'[l] == if l < nodes[victim].Height() then Excise(lanes[l], splits[l]) else lanes[l]
    ensures Shaped(nodes', lanes', height)
    ensures forall l, n :: 0 <= l < INITIAL_HEIGHT ==> (n in lanes'[l] <==> n in lanes[l] && n != victim)
  {
    forall l | 0 <= l < INITIAL_HEIGHT
      ensures Ascending(nodes, lanes[l]) && (l >= nodes[victim].Height() ==> victim !in lanes[l])
    {
      LevelFacts(nodes, lanes, height, l);
    }
    UnlinkedLevels(nodes, lanes, nodes', lanes', splits, victim);
  }

  /** Takes the node holding `key` out of every level it is on. `victim` is
      that node (the level-0 entry at the split point of `key`); the entries
      of the list lose exactly that entry and no level reaches it any more. */
  method Unlink<V>(nodes: seq<SLNode<V>>, ghost lanes: seq<seq<nat>>, height: int,
                   update: seq<nat>, ghost splits: seq<nat>, key: int)
    returns (nodes': seq<SLNode<V>>, ghost lanes': seq<seq<nat>>, victim: nat)
    requires Shaped(nodes, lanes, height)
    requires Predecessors(nodes, lanes, update, splits, height, key)
    requires 0 < height && splits[0] < |lanes[0]| && nodes[lanes[0][splits[0]]].key == key
    ensures victim == lanes[0][splits[0]] && victim < |nodes| && nodes[victim].Height() <= height
    ensures |nodes'| == |nodes| && SameEntries(nodes, nodes')
    ensures |lanes'| == INITIAL_HEIGHT
    ensures forall l :: 0 <= l < INITIAL_HEIGHT ==> lanes'[l] == if l < nodes[victim].Height() then Excise(lanes[l], splits[l]) else lanes[l]
    ensures Shaped(nodes', lanes', height)
    ensures forall l :: 0 <= l < INITIAL_HEIGHT ==> victim !in lanes'[l]
    ensures EntriesOf(nodes', lanes'[0]) == Excise(EntriesOf(nodes, lanes[0]), splits[0])
  {
    LevelFacts(nodes, lanes, height, 0);
    LinkBefore(nodes, lanes[0], 0, splits[0]);
    victim := nodes[update[0]].next[0];
    forall l | 0 <= l < nodes[victim].Height()
      ensures l < height && splits[l] < |lanes[l]| && lanes[l][splits[l]] == victim
    {
      VictimAt(nodes, lanes, height, splits, key, l);
    }
    if nodes[victim].Height() > height {
      VictimAt(nodes, lanes, height, splits, key, height);
    }
    FreshLanes(nodes, lanes, height);
    nodes', lanes' := LinkOut(nodes, lanes, update, splits, victim);
    UnlinkedShape(nodes, lanes, height, nodes', lanes', splits, victim);
    EntriesExcise(nodes, nodes', lanes[0], splits[0]);
  }
}

=== FILE: shape.dfy ===
/**
 The shape of a skip list held in a node arena. `lanes[l]` lists, in chain
 order, the arena indices of the nodes reachable from the head at level `l`.
 `Shaped` is the representation invariant: each level's chain follows its
 lane, keys strictly increase along every lane, a node appears on exactly the
 levels below its height (which is at most the head's), and levels at or
 above the list height are empty.
 */
module Shape {
  import opened SkipNodes
  import opened SortedMap

  /** The node whose level link leads to position `p` of a lane: the head for
      `p == 0`, otherwise the node just before `p`. */
  function Before(lane: seq<nat>, p: nat): (n: nat)
    requires p <= |lane|
  {
    if p == 0 then FRONT else lane[p - 1]
  }

  /** The link the head holds for a lane. */
  function First(lane: seq<nat>): (link: int) {
    if lane == [] then NIL else lane[0]
  }

  /** The link the node at position `j` of a lane holds. */
  function After(lane: seq<nat>, j: nat): (link: int)
    requires j < |lane|
  {
    if j + 1 < |lane| then lane[j + 1] else NIL
  }

  /** Every lane entry is a real node (never the head) of the arena tall enough for level `l`. */
  ghost predicate OnLevel<V>(nodes: seq<SLNode<V>>, lane: seq<nat>, l: nat) {
    forall j :: 0 <= j < |lane| ==> FRONT < lane[j] < |nodes| && l < nodes[lane[j]].Height()
  }

  /** Following the level-`l` links from the head visits exactly the lane, then NIL. */
  ghost predicate Linked<V>(nodes: seq<SLNode<V>>, lane: seq<nat>, l: nat) {
    && OnLevel(nodes, lane, l)
    && |nodes| > 0 && l < nodes[FRONT].Height()
    && nodes[FRONT].next[l] == First(lane)
    && forall j {:trigger After(lane, j)} :: 0 <= j < |lane| ==> nodes[lane[j]].next[l] == After(lane, j)
  }

  /** Every lane entry is an arena index. */
  ghost predicate InArena<V>(nodes: seq<SLNode<V>>, lane: seq<nat>) {
    forall j :: 0 <= j < |lane| ==> lane[j] < |nodes|
  }

  /** Keys strictly increase along the lane. */
  ghost predicate Ascending<V>(nodes: seq<SLNode<V>>, lane: seq<nat>) {
    && InArena(nodes, lane)
    && forall i, j :: 0 <= i < j < |lane| ==> nodes[lane[i]].key < nodes[lane[j]].key
  }

  ghost predicate Distinct(lane: seq<nat>) {
    forall i, j :: 0 <= i < j < |lane| ==> lane[i] != lane[j]
  }

  /** The representation invariant of a skip list of the given height. */
  ghost predicate Shaped<V>(nodes: seq<SLNode<V>>, lanes: seq<seq<nat>>, height: int) {
    && |nodes| > 0 && nodes[FRONT].Height() == INITIAL_HEIGHT
    && |lanes| == INITIAL_HEIGHT
    && 0 <= height <= INITIAL_HEIGHT
    && (forall n :: 0 <= n < |nodes| ==> nodes[n].Height() <= INITIAL_HEIGHT)
    && (forall l :: 0 <= l < INITIAL_HEIGHT ==> Linked(nodes, lanes[l], l) && Ascending(nodes, lanes[l]))
    && (forall l, n :: 0 <= l < INITIAL_HEIGHT && n in lanes[l] ==> n in lanes[0])
    && (forall l, n :: 0 <= l < INITIAL_HEIGHT && n in lanes[0] && n < |nodes| && l < nodes[n].Height() ==> n in lanes[l])
    && (forall l :: height <= l < INITIAL_HEIGHT ==> lanes[l] == [])
  }

  /** The (key, value) entries of the nodes of a lane, in lane order. */
  function EntriesOf<V>(nodes: seq<SLNode<V>>, lane: seq<nat>): (e: seq<(int, V)>)
    requires InArena(nodes, lane)
  {
    seq(|lane|, j requires 0 <= j < |lane| => (nodes[lane[j]].key, nodes[lane[j]].value))
  }

  /** `p` splits the lane at `key`: the nodes before `p` precede `key`, the rest do not. */
  ghost predicate IsSplit<V>(nodes: seq<SLNode<V>>, lane: seq<nat>, p: nat, key: int) {
    && p <= |lane|
    && InArena(nodes, lane)
    && (forall j :: 0 <= j < p ==> nodes[lane[j]].key < key)
    && (forall j :: p <= j < |lane| ==> key <= nodes[lane[j]].key)
  }

  /** Two arenas agree on the key, value and height of every node of the first. */
  ghost predicate SameEntries<V>(nodes: seq<SLNode<V>>, nodes': seq<SLNode<V>>) {
    && |nodes| <= |nodes'|
    && forall n :: 0 <= n < |nodes| ==>
         && nodes'[n].key == nodes[n].key
         && nodes'[n].value == nodes[n].value
         && nodes'[n].Height() == nodes[n].Height()
  }

  lemma AscendingDistinct<V>(nodes: seq<SLNode<V>>, lane: seq<nat>)
    requires Ascending(nodes, lane)
    ensures Distinct(lane)
  {
  }

  /** Along an ascending lane the entries are strictly ascending. */
  lemma AscendingEntries<V>(nodes: seq<SLNode<V>>, lane: seq<nat>)
    requires Ascending(nodes, lane)
    ensures StrictlyAscending(EntriesOf(nodes, lane))
  {
  }

  /** The link that leads to position `p` of a lane. */
  lemma LinkBefore<V>(nodes: seq<SLNode<V>>, lane: seq<nat>, l: nat, p: nat)
    requires Linked(nodes, lane, l) && p <= |lane|
    ensures Before(lane, p) < |nodes| && l < nodes[Before(lane, p)].Height()
    ensures nodes[Before(lane, p)].next[l] == if p < |lane| then lane[p] else NIL
  {
    if p > 0 {
      assert nodes[lane[p - 1]].next[l] == After(lane, p - 1);
    }
  }

  /** Replacing one link leaves a chain intact unless the link is on the chain. */
  lemma SetNextFrame<V>(nodes: seq<SLNode<V>>, lane: seq<nat>, l: nat, u: nat, m: nat, y: int)
    requires Linked(nodes, lane, l)
    requires u < |nodes| && m < nodes[u].Height()
    requires m != l || (u != FRONT && u !in lane)
    ensures Linked(nodes[u := nodes[u].SetNext(m, y)], lane, l)
  {
    var nodes' := nodes[u := nodes[u].SetNext(m, y)];
    forall j | 0 <= j < |lane|
      ensures nodes'[lane[j]].next[l] == After(lane, j)
    {
      if lane[j] == u {
        assert nodes'[u].Next(l) == nodes[u].Next(l);
      }
    }
  }

  /** Adding a node to the arena leaves every chain intact. */
  lemma AppendFrame<V>(nodes: seq<SLNode<V>>, lane: seq<nat>, l: nat, node: SLNode<V>)
    requires Linked(nodes, lane, l)
    ensures Linked(nodes + [node], lane, l)
  {
  }

  /** Pointing the predecessor of position `p` past the node there takes that
      node out of the chain. */
  lemma UnlinkLevel<V>(nodes: seq<SLNode<V>>, lane: seq<nat>, l: nat, p: nat)
    requires Linked(nodes, lane, l) && Distinct(lane) && p < |lane|
    ensures Before(lane, p) < |nodes| && l < nodes[Before(lane, p)].Height()
    ensures Linked(nodes[Before(lane, p) := nodes[Before(lane, p)].SetNext(l, nodes[lane[p]].next[l])], Excise(lane, p), l)
  {
    var u := Before(lane, p);
    var nodes' := nodes[u := nodes[u].SetNext(l, nodes[lane[p]].next[l])];
    var lane' := Excise(lane, p);
    assert nodes[lane[p]].next[l] == After(lane, p);
    assert nodes'[FRONT].next[l] == First(lane');
    forall j | 0 <= j < |lane'|
      ensures nodes'[lane'[j]].next[l] == After(lane', j)
    {
      if j == p - 1 {
        assert lane'[j] == u;
      } else if j < p - 1 {
        assert lane'[j] == lane[j] != u;
        assert nodes[lane[j]].next[l] == After(lane, j);
      } else {
        assert lane'[j] == lane[j + 1] != u;
        assert nodes[lane[j + 1]].next[l] == After(lane, j + 1);
      }
    }
  }

  /** Pointing the predecessor of position `p` at a node `x` that already
      links to the node at `p` puts `x` into the chain at `p`. */
  lemma SpliceLevel<V>(nodes: seq<SLNode<V>>, lane: seq<nat>, l: nat, p: nat, x: nat)
    requires Linked(nodes, lane, l) && Distinct(lane) && p <= |lane|
    requires FRONT < x < |nodes| && x !in lane && l < nodes[x].Height()
    requires nodes[x].next[l] == if p < |lane| then lane[p] else NIL
    ensures Before(lane, p) < |nodes| && l < nodes[Before(lane, p)].Height()
    ensures Linked(nodes[Before(lane, p) := nodes[Before(lane, p)].SetNext(l, x)], Insert(lane, p, x), l)
  {
    var u := Before(lane, p);
    var nodes' := nodes[u := nodes[u].SetNext(l, x)];
    var lane' := Insert(lane, p, x);
    SpliceOnLevel(nodes, lane, l, p, x, u, x);
    assert nodes'[FRONT].next[l] == First(lane');
    forall j | 0 <= j < |lane'|
      ensures nodes'[lane'[j]].next[l] == After(lane', j)
    {
      if j == p {
        assert lane'[j] == x != u;
        assert nodes'[x] == nodes[x];
      } else if j == p - 1 {
        assert lane'[j] == u;
      } else if j < p - 1 {
        assert lane'[j] == lane[j] != u;
        assert nodes'[lane[j]] == nodes[lane[j]];
        assert After(lane, j) == lane[j + 1] == lane'[j + 1];
      } else {
        assert lane'[j] == lane[j - 1] != u;
        assert nodes'[lane[j - 1]] == nodes[lane[j - 1]];
        assert After(lane, j - 1) == After(lane', j);
      }
    }
  }

  /** Placing a node tall enough for level `l` into a lane, and replacing one
      arena node by another of the same height, keeps every entry on level `l`. */
  lemma SpliceOnLevel<V>(nodes: seq<SLNode<V>>, lane: seq<nat>, l: nat, p: nat, x: nat, u: nat, y: int)
    requires OnLevel(nodes, lane, l) && p <= |lane|
    requires FRONT < x < |nodes| && l < nodes[x].Height()
    requires u < |nodes| && l < nodes[u].Height()
    ensures OnLevel(nodes[u := nodes[u].SetNext(l, y)], Insert(lane, p, x), l)
  {
    var nodes' := nodes[u := nodes[u].SetNext(l, y)];
    var lane' := Insert(lane, p, x);
    forall j | 0 <= j < |lane'|
      ensures FRONT < lane'[j] < |nodes'| && l < nodes'[lane'[j]].Height()
    {
      if j != p {
        var i := if j < p then j else j - 1;
        assert lane'[j] == lane[i];
      }
    }
  }
}

=== FILE: shrink.dfy ===
/**
 The height recompute at the end of `remove`: after the tallest node is
 taken out, the list's height becomes the number of leading non-empty head
 levels.
 */
module Shrink {
  import opened SkipNodes
  import opened Outcomes
  import opened Shape

  /** `n` counts the leading non-NIL links: those below `n` are set, and the
      one at `n` (if any) is NIL. */
  ghost predicate LeadingNonEmpty(links: seq<int>, n: int) {
    && 0 <= n <= |links|
    && (forall i :: 0 <= i < n ==> links[i] != NIL)
    && (n < |links| ==> links[n] == NIL)
  }

  /** The recompute loop, with its guard bounded by the number of head links. */
  method LeadingLevels<V>(front: SLNode<V>) returns (n: nat)
    requires front.Height() == INITIAL_HEIGHT
    ensures LeadingNonEmpty(front.next, n)
  {
    n := 0;
    while n < INITIAL_HEIGHT && front.Next(n) != NIL
      invariant n <= INITIAL_HEIGHT
      invariant forall i :: 0 <= i < n ==> front.next[i] != NIL
    {
      n := n + 1;
    }
  }

  /** The read `front.next(i)` of the Java `remove`: the link, or the fault of
      reading past the last link. */
  function ReadLink(links: seq<int>, i: nat): (r: Result<int>)
    ensures r.Success? <==> i < |links|
    ensures r.Success? ==> r.value == links[i]
  {
    if i < |links| then Success(links[i]) else Failure(IndexOutOfBounds)
  }

  /** The recompute loop as the Java `remove` writes it, with the guard
      `newHeight <= INITIAL_HEIGHT`: when every head link is set, it goes on
      to read a 17th link and fails. */
  method LeadingLevelsAsWritten(links: seq<int>) returns (r: Result<nat>)
    requires |links| == INITIAL_HEIGHT
    ensures r.Failure? <==> forall i :: 0 <= i < INITIAL_HEIGHT ==> links[i] != NIL
    ensures r.Failure? ==> r.fault == IndexOutOfBounds
    ensures r.Success? ==> LeadingNonEmpty(links, r.value) && r.value < INITIAL_HEIGHT
  {
    var n := 0;
    while n <= INITIAL_HEIGHT && ReadLink(links, n) != Success(NIL)
      invariant n <= INITIAL_HEIGHT
      invariant forall i :: 0 <= i < n ==> links[i] != NIL
    {
      if ReadLink(links, n).Failure? {
        return Failure(IndexOutOfBounds);
      }
      n := n + 1;
    }
    return Success(n);
  }

  /** A node as tall as the head that is still in the list keeps every head
      link set, so the recompute as written fails on such a list. */
  lemma TallNodeFillsHead<V>(nodes: seq<SLNode<V>>, lanes: seq<seq<nat>>, height: int, n: nat)
    requires Shaped(nodes, lanes, height) && n in lanes[0] && nodes[n].Height() == INITIAL_HEIGHT
    ensures forall i :: 0 <= i < INITIAL_HEIGHT ==> nodes[FRONT].next[i] != NIL
  {
    forall i | 0 <= i < INITIAL_HEIGHT
      ensures nodes[FRONT].next[i] != NIL
    {
      assert Linked(nodes, lanes[i], i);
      assert n in lanes[i];
    }
  }

  /** Shrinking the height to the number of leading non-empty head levels
      keeps the list shaped, and that number is the height of the tallest
      node left (0 when the list is empty). */
  lemma ShrunkShape<V>(nodes: seq<SLNode<V>>, lanes: seq<seq<nat>>, height: int, n: nat)
    requires Shaped(nodes, lanes, height) && LeadingNonEmpty(nodes[FRONT].next, n)
    ensures Shaped(nodes, lanes, n)
    ensures forall j :: 0 <= j < |lanes[0]| ==> nodes[lanes[0][j]].Height() <= n
    ensures n > 0 ==> exists j :: 0 <= j < |lanes[0]| && nodes[lanes[0][j]].Height() == n
    ensures n == 0 <==> lanes[0] == []
  {
    forall l | n <= l < INITIAL_HEIGHT
      ensures lanes[l] == []
    {
      assert Linked(nodes, lanes[n], n);
      assert lanes[n] == [];
    }
    forall j | 0 <= j < |lanes[0]|
      ensures nodes[lanes[0][j]].Height() <= n
    {
      assert Linked(nodes, lanes[0], 0);
      var m := lanes[0][j];
      assert m in lanes[0];
      if n < INITIAL_HEIGHT {
        assert m !in lanes[n];
      }
    }
    assert Linked(nodes, lanes[0], 0);
    if n > 0 {
      assert Linked(nodes, lanes[n - 1], n - 1);
      var m := lanes[n - 1][0];
      assert m in lanes[0];
      var j :| 0 <= j < |lanes[0]| && lanes[0][j] == m;
      assert nodes[lanes[0][j]].Height() == n;
    }
  }
}

=== FILE: skiplist.dfy ===
/**
 The skip list: an ordered map from keys to values held in a node arena
 whose first node is the head sentinel `front`. Every operation starts with
 the descending predecessor search; `set` and `remove` then splice a node in
 or out of the levels it takes part in.
 */
module SkipLists {
  import opened SkipNodes
  import opened SortedMap
  import opened Shape
  import opened Descent
  import opened Relink
  import opened Shrink
  import opened Outcomes

  /** The height of the node holding key `k` in a lane (0 if there is none). */
  ghost function KeyHeight<V>(nodes: seq<SLNode<V>>, lane: seq<nat>, k: int): (h: nat)
    requires InArena(nodes, lane)
  {
    if exists j :: 0 <= j < |lane| && nodes[lane[j]].key == k then
      var j :| 0 <= j < |lane| && nodes[lane[j]].key == k; nodes[lane[j]].Height()
    else 0
  }

  lemma KeyHeightAt<V>(nodes: seq<SLNode<V>>, lane: seq<nat>, p: nat)
    requires Ascending(nodes, lane) && p < |lane|
    ensures KeyHeight(nodes, lane, nodes[lane[p]].key) == nodes[lane[p]].Height()
  {
  }

  /** The height of the node holding a key can be read off any lane entry that holds it. */
  lemma KeyHeightOf<V>(nodes: seq<SLNode<V>>, lane: seq<nat>, n: nat)
    requires Ascending(nodes, lane) && n in lane
    ensures n < |nodes| && KeyHeight(nodes, lane, nodes[n].key) == nodes[n].Height()
  {
    var p :| 0 <= p < |lane| && lane[p] == n;
    KeyHeightAt(nodes, lane, p);
  }

  /** A bound key keeps its node's height when the arena keeps every node's
      key and height and the lane keeps the key's node. */
  lemma KeptHeight<V>(nodes: seq<SLNode<V>>, lane: seq<nat>, nodes': seq<SLNode<V>>, lane': seq<nat>, k: int)
    requires Ascending(nodes, lane) && Ascending(nodes', lane')
    requires |nodes| <= |nodes'|
    requires forall n :: 0 <= n < |nodes| ==> nodes'[n].key == nodes[n].key && nodes'[n].Height() == nodes[n].Height()
    requires k in MapOf(EntriesOf(nodes, lane))
    requires forall j :: 0 <= j < |lane| && nodes[lane[j]].key == k ==> lane[j] in lane'
    ensures KeyHeight(nodes', lane', k) == KeyHeight(nodes, lane, k)
  {
    var e := EntriesOf(nodes, lane);
    MapOfKeys(e, k);
    var i :| 0 <= i < |e| && e[i].0 == k;
    var n := lane[i];
    assert nodes[n].key == k;
    KeyHeightOf(nodes, lane, n);
    KeyHeightOf(nodes', lane', n);
  }

  /** On a shaped list, the number of level-0 nodes is the number of keys mapped. */
  lemma CountIsSize<V>(nodes: seq<SLNode<V>>, lanes: seq<seq<nat>>, height: int)
    requires Shaped(nodes, lanes, height)
    ensures StrictlyAscending(EntriesOf(nodes, lanes[0]))
    ensures |MapOf(EntriesOf(nodes, lanes[0]))| == |lanes[0]|
  {
    LevelFacts(nodes, lanes, height, 0);
    AscendingEntries(nodes, lanes[0]);
    MapOfSize(EntriesOf(nodes, lanes[0]));
  }

  /** The levels below the list's height take their recorded predecessors
      from the search; the levels from the list's height up to `h`, which are
      empty, take the head. */
  lemma ExtendPredecessors<V>(nodes: seq<SLNode<V>>, lanes: seq<seq<nat>>, height: int,
                              update: seq<nat>, splits: seq<nat>, h: nat, key: int)
    requires Shaped(nodes, lanes, height) && h <= INITIAL_HEIGHT
    requires Predecessors(nodes, lanes, update, splits, height, key)
    requires h > height ==> |update| == height && |splits| == height
    ensures var update' := if h > height then update + seq(h - height, _ => FRONT) else update;
            var splits' := if h > height then splits + seq(h - height, _ => 0) else splits;
            && Predecessors(nodes, lanes, update', splits', h, key)
            && (forall l :: 0 <= l < height ==> update'[l] == update[l] && splits'[l] == splits[l])
  {
    var update' := if h > height then update + seq(h - height, _ => FRONT) else update;
    var splits' := if h > height then splits + seq(h - height, _ => 0) else splits;
    forall l | 0 <= l < h
      ensures Recorded(nodes, lanes[l], update'[l], splits'[l], key)
    {
      if l >= height {
        LevelFacts(nodes, lanes, height, l);
      }
    }
  }

  /** A level's chain only depends on the keys, heights and links of the arena. */
  lemma LinksFrame<V>(nodes: seq<SLNode<V>>, nodes': seq<SLNode<V>>, lane: seq<nat>, l: nat)
    requires Linked(nodes, lane, l) && Ascending(nodes, lane)
    requires |nodes'| == |nodes| && forall n :: 0 <= n < |nodes| ==> nodes'[n].key == nodes[n].key && nodes'[n].next == nodes[n].next
    ensures Linked(nodes', lane, l) && Ascending(nodes', lane)
  {
    assert nodes'[FRONT].next == nodes[FRONT].next;
    forall j | 0 <= j < |lane|
      ensures nodes'[lane[j]].next[l] == After(lane, j)
    {
      assert nodes[lane[j]].next[l] == After(lane, j);
    }
  }

  /** The shape of a list only depends on the keys, heights and links of the arena. */
  lemma ShapeFrame<V>(nodes: seq<SLNode<V>>, nodes': seq<SLNode<V>>, lanes: seq<seq<nat>>, height: int)
    requires Shaped(nodes, lanes, height)
    requires |nodes'| == |nodes| && forall n :: 0 <= n < |nodes| ==> nodes'[n].key == nodes[n].key && nodes'[n].next == nodes[n].next
    ensures Shaped(nodes', lanes, height)
  {
    forall l | 0 <= l < INITIAL_HEIGHT
      ensures Linked(nodes', lanes[l], l) && Ascending(nodes', lanes[l])
    {
      LevelFacts(nodes, lanes, height, l);
      LinksFrame(nodes, nodes', lanes[l], l);
    }
  }

  /** Overwriting the value of the level-0 node at `p` keeps the list shaped
      and rebinds that node's entry. */
  lemma ReplaceValue<V>(nodes: seq<SLNode<V>>, lanes: seq<seq<nat>>, height: int, p: nat, v: V)
    requires Shaped(nodes, lanes, height) && p < |lanes[0]|
    ensures lanes[0][p] < |nodes|
    ensures var nodes' := nodes[lanes[0][p] := nodes[lanes[0][p]].(value := v)];
            && Shaped(nodes', lanes, height)
            && EntriesOf(nodes', lanes[0]) == EntriesOf(nodes, lanes[0])[p := (nodes[lanes[0][p]].key, v)]
  {
    LevelFacts(nodes, lanes, height, 0);
    var n := lanes[0][p];
    var nodes' := nodes[n := nodes[n].(value := v)];
    ShapeFrame(nodes, nodes', lanes, height);
    AscendingDistinct(nodes, lanes[0]);
  }

  /** The map a shaped list holds. */
  ghost function ModelOf<V>(nodes: seq<SLNode<V>>, lanes: seq<seq<nat>>, height: int): (m: map<int, V>)
    requires Shaped(nodes, lanes, height)
  {
    LevelFacts(nodes, lanes, height, 0);
    MapOf(EntriesOf(nodes, lanes[0]))
  }

  /** The outcome of the search for `key`: the recorded predecessors, and the
      level-0 node that follows them (NIL at the end of the chain). `found`
      says whether that node holds `key`, which is whether `key` is bound. */
  method Locate<V>(nodes: seq<SLNode<V>>, ghost lanes: seq<seq<nat>>, height: int, key: int)
    returns (update: seq<nat>, succ: int, found: bool, ghost splits: seq<nat>, ghost at: nat)
    requires Shaped(nodes, lanes, height)
    ensures |update| == height && |splits| == height
    ensures Predecessors(nodes, lanes, update, splits, height, key)
    ensures at <= |lanes[0]| && (height > 0 ==> splits[0] == at)
    ensures succ == if at < |lanes[0]| then lanes[0][at] else NIL
    ensures found <==> key in ModelOf(nodes, lanes, height)
    ensures found ==> at < |lanes[0]| && nodes[succ].key == key && ModelOf(nodes, lanes, height)[key] == nodes[succ].value
    ensures !found ==> forall j :: 0 <= j < |lanes[0]| ==> nodes[lanes[0][j]].key != key
  {
    var pred;
    update, pred, splits, at := FindPredecessors(nodes, lanes, height, key);
    LevelFacts(nodes, lanes, height, 0);
    LinkBefore(nodes, lanes[0], 0, at);
    ghost var e := EntriesOf(nodes, lanes[0]);
    AscendingEntries(nodes, lanes[0]);
    SplitDecides(e, at, key);
    MapOfKeys(e, key);
    succ := nodes[pred].Next(0);
    found := !(succ == NIL || Precede(key, nodes[succ].key));
    if !found {
      forall j | 0 <= j < |lanes[0]|
        ensures nodes[lanes[0][j]].key != key
      {
        assert e[j].0 == nodes[lanes[0][j]].key;
      }
    }
  }

  /** `set` of a key that is not bound: a node of height `h` is spliced in
      at the key's place and the height grows to `h` if it was lower. */
  method InsertAbsent<V>(nodes: seq<SLNode<V>>, ghost lanes: seq<seq<nat>>, height: int,
                         update: seq<nat>, ghost splits: seq<nat>, ghost at: nat, key: int, value: V, h: nat)
    returns (nodes': seq<SLNode<V>>, ghost lanes': seq<seq<nat>>, height': int)
    requires Shaped(nodes, lanes, height) && 1 <= h <= INITIAL_HEIGHT
    requires |update| == height && |splits| == height && Predecessors(nodes, lanes, update, splits, height, key)
    requires at <= |lanes[0]| && (height > 0 ==> splits[0] == at)
    requires forall j :: 0 <= j < |lanes[0]| ==> nodes[lanes[0][j]].key != key
    ensures Shaped(nodes', lanes', height')
    ensures ModelOf(nodes', lanes', height') == ModelOf(nodes, lanes, height)[key := value]
    ensures |nodes'| == |nodes| + 1 && |lanes'[0]| == |lanes[0]| + 1
    ensures height' == if h > height then h else height
    ensures KeyHeight(nodes', lanes'[0], key) == h
    ensures forall k :: k in ModelOf(nodes, lanes, height) ==> KeyHeight(nodes', lanes'[0], k) == KeyHeight(nodes, lanes[0], k)
  {
    LevelFacts(nodes, lanes, height, 0);
    ghost var e := EntriesOf(nodes, lanes[0]);
    assert forall j :: 0 <= j < |e| ==> e[j].0 != key;
    MapOfKeys(e, key);
    var update', splits' := PadPredecessors(nodes, lanes, height, update, splits, at, h, key);
    nodes', lanes' := Splice(nodes, lanes, height, update', splits', key, value, h);
    MapOfInsert(e, at, key, value);
    height' := if h > height then h else height;
    InsertedHeights(nodes, lanes, height, nodes', lanes', height', at, key, h);
  }

  /** The predecessors of a new node of height `h`: those the search
      recorded, and the head on the levels from the list's height up to `h`. */
  method PadPredecessors<V>(nodes: seq<SLNode<V>>, ghost lanes: seq<seq<nat>>, height: int,
                            update: seq<nat>, ghost splits: seq<nat>, ghost at: nat, h: nat, key: int)
    returns (update': seq<nat>, ghost splits': seq<nat>)
    requires Shaped(nodes, lanes, height) && 1 <= h <= INITIAL_HEIGHT
    requires |update| == height && |splits| == height && Predecessors(nodes, lanes, update, splits, height, key)
    requires at <= |lanes[0]| && (height > 0 ==> splits[0] == at)
    ensures Predecessors(nodes, lanes, update', splits', h, key) && splits'[0] == at
    ensures forall l :: 0 <= l < h ==> update'[l] == if l < height then update[l] else FRONT
  {
    ExtendPredecessors(nodes, lanes, height, update, splits, h, key);
    update', splits' := update, splits;
    if h > height {
      update' := update + seq(h - height, _ => FRONT);
      splits' := splits + seq(h - height, _ => 0);
    }
    if height == 0 {
      LevelFacts(nodes, lanes, height, 0);
    }
  }

  /** Splicing a node of height `h` for `key` into level 0 at `p` gives `key`
      that height and keeps the height of every bound key. */
  lemma InsertedHeights<V>(nodes: seq<SLNode<V>>, lanes: seq<seq<nat>>, height: int,
                           nodes': seq<SLNode<V>>, lanes': seq<seq<nat>>, height': int, p: nat, key: int, h: nat)
    requires Shaped(nodes, lanes, height) && Shaped(nodes', lanes', height')
    requires |nodes'| == |nodes| + 1 && SameEntries(nodes, nodes')
    requires nodes'[|nodes|].key == key && nodes'[|nodes|].Height() == h
    requires p <= |lanes[0]| && lanes'[0] == Insert(lanes[0], p, |nodes|)
    ensures KeyHeight(nodes', lanes'[0], key) == h
    ensures forall k :: k in ModelOf(nodes, lanes, height) ==> KeyHeight(nodes', lanes'[0], k) == KeyHeight(nodes, lanes[0], k)
  {
    LevelFacts(nodes, lanes, height, 0);
    LevelFacts(nodes', lanes', height', 0);
    InsertMembers(lanes[0], p, |nodes|);
    KeyHeightOf(nodes', lanes'[0], |nodes|);
    forall k | k in ModelOf(nodes, lanes, height)
      ensures KeyHeight(nodes', lanes'[0], k) == KeyHeight(nodes, lanes[0], k)
    {
      KeptHeight(nodes, lanes[0], nodes', lanes'[0], k);
    }
  }

  /** `set` of a bound key: its node's value is overwritten in place. */
  method Overwrite<V>(nodes: seq<SLNode<V>>, ghost lanes: seq<seq<nat>>, height: int, succ: nat, ghost at: nat, value: V)
    returns (nodes': seq<SLNode<V>>)
    requires Shaped(nodes, lanes, height) && at < |lanes[0]| && succ == lanes[0][at]
    ensures Shaped(nodes', lanes, height)
    ensures ModelOf(nodes', lanes, height) == ModelOf(nodes, lanes, height)[nodes[succ].key := value]
    ensures |nodes'| == |nodes|
    ensures forall k :: k in ModelOf(nodes, lanes, height) ==> KeyHeight(nodes', lanes[0], k) == KeyHeight(nodes, lanes[0], k)
  {
    ReplaceValue(nodes, lanes, height, at, value);
    LevelFacts(nodes, lanes, height, 0);
    AscendingEntries(nodes, lanes[0]);
    MapOfReplace(EntriesOf(nodes, lanes[0]), at, value);
    nodes' := nodes[succ := nodes[succ].(value := value)];
    LevelFacts(nodes', lanes, height, 0);
    forall k | k in ModelOf(nodes, lanes, height)
      ensures KeyHeight(nodes', lanes[0], k) == KeyHeight(nodes, lanes[0], k)
    {
      KeptHeight(nodes, lanes[0], nodes', lanes[0], k);
    }
  }

  /** `AbsentOnLevel` on every level, stated against the map the list holds
      and by membership in a lane: the form in which the removal states that
      the removed key is left on no level. */
  lemma AbsentEverywhere<V>(nodes: seq<SLNode<V>>, lanes: seq<seq<nat>>, height: int, key: int)
    requires Shaped(nodes, lanes, height) && key !in ModelOf(nodes, lanes, height)
    ensures forall l, n :: 0 <= l < INITIAL_HEIGHT && n in lanes[l] ==> nodes[n].key != key
  {
    forall l | 0 <= l < INITIAL_HEIGHT
      ensures forall n :: n in lanes[l] ==> nodes[n].key != key
    {
      AbsentOnLevel(nodes, lanes, height, l, key);
    }
  }

  /** The end of `remove`: when the removed node was as tall as the list,
      the height becomes the number of leading non-empty head levels. */
  method Reheight<V>(nodes: seq<SLNode<V>>, ghost lanes: seq<seq<nat>>, height: int, removedHeight: nat)
    returns (height': int)
    requires Shaped(nodes, lanes, height)
    ensures Shaped(nodes, lanes, height')
    ensures if removedHeight >= height then LeadingNonEmpty(nodes[FRONT].next, height') else height' == height
  {
    height' := height;
    if removedHeight >= height {
      height' := LeadingLevels(nodes[FRONT]);
      ShrunkShape(nodes, lanes, height, height');
    }
  }

  /** `remove` of a bound key: its node is unlinked from every level, and
      when it was as tall as the list the height is recomputed from the
      head's links. */
  method RemovePresent<V>(nodes: seq<SLNode<V>>, ghost lanes: seq<seq<nat>>, height: int,
                          update: seq<nat>, ghost splits: seq<nat>, ghost at: nat, succ: nat, key: int)
    returns (nodes': seq<SLNode<V>>, ghost lanes': seq<seq<nat>>, height': int, removed: V)
    requires Shaped(nodes, lanes, height)
    requires |update| == height && |splits| == height && Predecessors(nodes, lanes, update, splits, height, key)
    requires at < |lanes[0]| && (height > 0 ==> splits[0] == at) && succ == lanes[0][at] && nodes[succ].key == key
    requires key in ModelOf(nodes, lanes, height)
    ensures Shaped(nodes', lanes', height')
    ensures ModelOf(nodes', lanes', height') == ModelOf(nodes, lanes, height) - {key}
    ensures removed == ModelOf(nodes, lanes, height)[key]
    ensures |lanes'[0]| == |lanes[0]| - 1
    ensures forall l, n :: 0 <= l < INITIAL_HEIGHT && n in lanes'[l] ==> nodes'[n].key != key
    ensures if KeyHeight(nodes, lanes[0], key) >= height then LeadingNonEmpty(nodes'[FRONT].next, height') else height' == height
    ensures forall k :: k in ModelOf(nodes, lanes, height) && k != key ==> KeyHeight(nodes', lanes'[0], k) == KeyHeight(nodes, lanes[0], k)
  {
    LevelFacts(nodes, lanes, height, 0);
    ghost var e := EntriesOf(nodes, lanes[0]);
    AscendingEntries(nodes, lanes[0]);
    MapOfAt(e, at);
    MapOfExcise(e, at);
    KeyHeightAt(nodes, lanes[0], at);
    var victimHeight := nodes[succ].Height();
    var victim;
    nodes', lanes', victim := Unlink(nodes, lanes, height, update, splits, key);
    removed := nodes'[victim].value;
    AbsentEverywhere(nodes', lanes', height, key);
    height' := Reheight(nodes', lanes', height, victimHeight);
    assert 0 < nodes[victim].Height() && lanes'[0] == Excise(lanes[0], at);
    KeptHeights(nodes, lanes, height, nodes', lanes', height', at, key);
  }

  /** The unlink of the level-0 node at `at`, which holds `key`, keeps the
      height of every other bound key. */
  lemma KeptHeights<V>(nodes: seq<SLNode<V>>, lanes: seq<seq<nat>>, height: int,
                       nodes': seq<SLNode<V>>, lanes': seq<seq<nat>>, height': int, at: nat, key: int)
    requires Shaped(nodes, lanes, height) && Shaped(nodes', lanes', height')
    requires at < |lanes[0]| && nodes[lanes[0][at]].key == key
    requires SameEntries(nodes, nodes') && lanes'[0] == Excise(lanes[0], at)
    ensures forall k :: k in ModelOf(nodes, lanes, height) && k != key ==> KeyHeight(nodes', lanes'[0], k) == KeyHeight(nodes, lanes[0], k)
  {
    LevelFacts(nodes, lanes, height, 0);
    LevelFacts(nodes', lanes', height', 0);
    AscendingDistinct(nodes, lanes[0]);
    ExciseMembers(lanes[0], at);
    forall k | k in ModelOf(nodes, lanes, height) && k != key
      ensures KeyHeight(nodes', lanes'[0], k) == KeyHeight(nodes, lanes[0], k)
    {
      KeptHeight(nodes, lanes[0], nodes', lanes'[0], k);
    }
  }

  /** `remove` on the arena: a null key fails before any traversal; on an
      empty list, or for a key that is not bound, nothing changes and the
      result is `None`; otherwise the key's node is removed and its value
      returned. */
  method RemoveFrom<V>(nodes: seq<SLNode<V>>, ghost lanes: seq<seq<nat>>, height: int, key: Option<int>)
    returns (nodes': seq<SLNode<V>>, ghost lanes': seq<seq<nat>>, height': int, r: Result<Option<V>>)
    requires Shaped(nodes, lanes, height)
    ensures Shaped(nodes', lanes', height')
    ensures key == None ==> r == Failure(NullKey)
    ensures key == None || key.value !in ModelOf(nodes, lanes, height) ==>
              nodes' == nodes && lanes' == lanes && height' == height
    ensures key.Some? && key.value !in ModelOf(nodes, lanes, height) ==> r == Success(None)
    ensures key.Some? && key.value in ModelOf(nodes, lanes, height) ==>
              && r == Success(Some(ModelOf(nodes, lanes, height)[key.value]))
              && ModelOf(nodes', lanes', height') == ModelOf(nodes, lanes, height) - {key.value}
              && |lanes'[0]| == |lanes[0]| - 1
              && (forall l, n :: 0 <= l < INITIAL_HEIGHT && n in lanes'[l] ==> nodes'[n].key != key.value)
              && (forall k :: k in ModelOf(nodes, lanes, height) && k != key.value ==>
                    KeyHeight(nodes', lanes'[0], k) == KeyHeight(nodes, lanes[0], k))
              && if KeyHeight(nodes, lanes[0], key.value) >= height
                 then LeadingNonEmpty(nodes'[FRONT].next, height')
                 else height' == height
  {
    nodes', lanes', height' := nodes, lanes, height;
    if key == None {
      return nodes', lanes', height', Failure(NullKey);
    }
    var k := key.value;
    if nodes[FRONT].Next(0) == NIL {
      LevelFacts(nodes, lanes, height, 0);
      MapOfKeys(EntriesOf(nodes, lanes[0]), k);
      return nodes', lanes', height', Success(None);
    }
    var update, succ, found, splits, at := Locate(nodes, lanes, height, k);
    if !found {
      return nodes', lanes', height', Success(None);
    }
    var removed;
    nodes', lanes', height', removed := RemovePresent(nodes, lanes, height, update, splits, at, succ, k);
    r := Success(Some(removed));
  }

  class SkipList<V(0)> {
    /** The node arena; `nodes[FRONT]` is the head sentinel `front`. */
    var nodes: seq<SLNode<V>>
    /** The number of entries. */
    var size: int
    /** The number of levels in use. */
    var height: int
    /** The arena indices reachable on each level, in chain order. */
    ghost var Lanes: seq<seq<nat>>

    ghost predicate Valid()
      reads this
    {
      Shaped(nodes, Lanes, height) && size == |Lanes[0]|
    }

    /** The (key, value) entries of the level-0 chain, in chain order. */
    ghost function Entries(): (e: seq<(int, V)>)
      reads this
      requires Valid()
    {
      LevelFacts(nodes, Lanes, height, 0);
      EntriesOf(nodes, Lanes[0])
    }

    /** The map the list holds. */
    ghost function Model(): (m: map<int, V>)
      reads this
      requires Valid()
    {
      ModelOf(nodes, Lanes, height)
    }

    /** An empty list: a head of `INITIAL_HEIGHT` absent links, size 0, height `INITIAL_HEIGHT`. */
    constructor ()
      ensures Valid() && Model() == map[] && size == 0 && height == INITIAL_HEIGHT
      ensures |nodes| == 1 && nodes[FRONT].Height() == INITIAL_HEIGHT
      ensures forall i :: 0 <= i < INITIAL_HEIGHT ==> nodes[FRONT].next[i] == NIL
    {
      var blank: V := *;
      var head := NewNode(0, blank, INITIAL_HEIGHT);
      forall j | 0 <= j < INITIAL_HEIGHT
        ensures head.next[j] == NIL
      {
        assert head.Next(j) == NIL;
      }
      for i := 0 to INITIAL_HEIGHT
        invariant head.Height() == INITIAL_HEIGHT
        invariant forall j :: 0 <= j < INITIAL_HEIGHT ==> head.next[j] == NIL
      {
        head := head.SetNext(i, NIL);
      }
      nodes := [head];
      size := 0;
      height := INITIAL_HEIGHT;
      Lanes := seq(INITIAL_HEIGHT, _ => []);
    }

    /** The number of entries (`size`). */
    function Size(): (n: int)
      reads this
      requires Valid()
      ensures n == |Model()|
    {
      CountIsSize(nodes, Lanes, height);
      size
    }

    /** The value bound to `key`, or `KeyNotFound`. */
    method Get(key: int) returns (r: Result<V>)
      requires Valid()
      ensures key in Model() ==> r == Success(Model()[key])
      ensures key !in Model() ==> r == Failure(KeyNotFound)
    {
      var update, succ, found, splits, at := Locate(nodes, Lanes, height, key);
      if !found {
        r := Failure(KeyNotFound);
      } else {
        r := Success(nodes[succ].value);
      }
    }

    /** Whether `key` is bound. */
    method ContainsKey(key: int) returns (b: bool)
      requires Valid()
      ensures b <==> key in Model()
    {
      var update, succ, found, splits, at := Locate(nodes, Lanes, height, key);
      b := found;
    }

    /** Binds `key` to `value`. A bound key has its node's value overwritten
        in place; otherwise a new node of height `h` is spliced in and the
        height grows to `h` if it was lower. Returns the previous value. */
    method Set(key: int, value: V, h: nat) returns (prev: Option<V>)
      requires Valid() && 1 <= h <= INITIAL_HEIGHT
      modifies this
      ensures Valid()
      ensures Model() == old(Model())[key := value]
      ensures prev == if key in old(Model()) then Some(old(Model())[key]) else None
      ensures key in old(Model()) ==> |nodes| == |old(nodes)| && Lanes == old(Lanes) && size == old(size) && height == old(height)
      ensures key !in old(Model()) ==> |nodes| == |old(nodes)| + 1 && size == old(size) + 1 && height == if h > old(height) then h else old(height)
      ensures key !in old(Model()) ==> KeyHeight(nodes, Lanes[0], key) == h
      ensures forall k :: k in old(Model()) ==> KeyHeight(nodes, Lanes[0], k) == old(KeyHeight(nodes, Lanes[0], k))
    {
      var update, succ, found, splits, at := Locate(nodes, Lanes, height, key);
      if !found {
        prev := None;
        nodes, Lanes, height := InsertAbsent(nodes, Lanes, height, update, splits, at, key, value, h);
        size := size + 1;
      } else {
        prev := Some(nodes[succ].value);
        nodes := Overwrite(nodes, Lanes, height, succ, at, value);
      }
    }

    /** Removes the binding of `key` (`None` is Java's null key). Returns the
        removed value, or `None` when the key is not bound; a null key fails
        before any traversal. */
    method Remove(key: Option<int>) returns (r: Result<Option<V>>)
      requires Valid()
      modifies this
      ensures Valid()
      ensures key == None ==> r == Failure(NullKey) && unchanged(this)
      ensures key.Some? && key.value !in old(Model()) ==> r == Success(None) && unchanged(this)
      ensures key.Some? && key.value in old(Model()) ==>
                && r == Success(Some(old(Model())[key.value]))
                && Model() == old(Model()) - {key.value}
                && size == old(size) - 1
                && (forall l, n :: 0 <= l < INITIAL_HEIGHT && n in Lanes[l] ==> nodes[n].key != key.value)
                && (forall k :: k in old(Model()) && k != key.value ==>
                      KeyHeight(nodes, Lanes[0], k) == old(KeyHeight(nodes, Lanes[0], k)))
                && if KeyHeight(old(nodes), old(Lanes[0]), key.value) >= old(height)
                   then LeadingNonEmpty(nodes[FRONT].next, height)
                   else height == old(height)
    {
      var nodes', height';
      ghost var lanes';
      nodes', lanes', height', r := RemoveFrom(nodes, Lanes, height, key);
      if r.Success? && r.value.Some? {
        size := size - 1;
      }
      nodes, Lanes, height := nodes', lanes', height';
    }

    /** An iterator over the level-0 nodes (`nodes()`). */
    method Nodes() returns (it: NodeIterator<V>)
      requires Valid()
      ensures fresh(it) && it.Valid() && it.list == this && it.pos == 0
      ensures it.HasNext() <==> Model() != map[]
    {
      it := new NodeIterator(this);
      CountIsSize(nodes, Lanes, height);
    }

    /** An iterator over the keys, in ascending order. */
    method Keys() returns (it: KeyIterator<V>)
      requires Valid()
      ensures fresh(it) && fresh(it.nit) && it.Valid() && it.nit.list == this && it.nit.pos == 0
    {
      it := new KeyIterator(this);
    }

    /** An iterator over the values, in ascending order of their keys. */
    method Values() returns (it: ValueIterator<V>)
      requires Valid()
      ensures fresh(it) && fresh(it.nit) && it.Valid() && it.nit.list == this && it.nit.pos == 0
    {
      it := new ValueIterator(this);
    }

    /** The (key, value) pairs `forEach` hands to its action, in the order it
        hands them: every entry once, in ascending key order. */
    method ForEach() returns (pairs: seq<(int, V)>)
      requires Valid()
      ensures StrictlyAscending(pairs) && MapOf(pairs) == Model()
      ensures |pairs| == Size()
    {
      var it := new NodeIterator(this);
      ghost var e := Entries();
      pairs := [];
      while it.HasNext()
        invariant it.Valid() && it.list == this
        invariant pairs == e[..it.pos]
        decreases |Lanes[0]| - it.pos
      {
        var r := it.Next();
        pairs := pairs + [(r.value.key, r.value.value)];
        assert e[..it.pos] == e[..it.pos - 1] + [e[it.pos - 1]];
      }
      assert pairs == e;
      CountIsSize(nodes, Lanes, height);
    }
  }

  /** The iterator over level-0 nodes: `cursor` is the next node to return. */
  class NodeIterator<V(0)> {
    const list: SkipList<V>
    var cursor: int
    /** How many nodes have been returned. */
    ghost var pos: nat

    ghost predicate Valid()
      reads this, list
    {
      && list.Valid()
      && pos <= |list.Lanes[0]|
      && cursor == if pos < |list.Lanes[0]| then list.Lanes[0][pos] else NIL
    }

    constructor (list: SkipList<V>)
      requires list.Valid()
      ensures Valid() && this.list == list && pos == 0
    {
      LevelFacts(list.nodes, list.Lanes, list.height, 0);
      this.list := list;
      cursor := list.nodes[FRONT].Next(0);
      pos := 0;
    }

    function HasNext(): (b: bool)
      reads this, list
      requires Valid()
      ensures b <==> pos < |list.Lanes[0]|
    {
      cursor != NIL
    }

    /** The next node in ascending key order, or `Exhausted` once every node has been returned. */
    method Next() returns (r: Result<SLNode<V>>)
      requires Valid()
      modifies this
      ensures Valid()
      ensures old(pos) < |list.Lanes[0]| ==> r == Success(list.nodes[list.Lanes[0][old(pos)]]) && pos == old(pos) + 1
      ensures old(pos) == |list.Lanes[0]| ==> r == Failure(Exhausted) && pos == old(pos)
    {
      if cursor == NIL {
        return Failure(Exhausted);
      }
      LevelFacts(list.nodes, list.Lanes, list.height, 0);
      assert list.nodes[cursor].next[0] == After(list.Lanes[0], pos);
      var node := list.nodes[cursor];
      cursor := node.Next(0);
      pos := pos + 1;
      r := Success(node);
    }
  }

  /** The iterator over keys (`keys()`), a view of a node iterator. */
  class KeyIterator<V(0)> {
    const nit: NodeIterator<V>

    ghost predicate Valid()
      reads this, nit, nit.list
    {
      nit.Valid()
    }

    constructor (list: SkipList<V>)
      requires list.Valid()
      ensures fresh(nit) && Valid() && nit.list == list && nit.pos == 0
    {
      nit := new NodeIterator(list);
    }

    function HasNext(): (b: bool)
      reads this, nit, nit.list
      requires Valid()
      ensures b <==> nit.pos < |nit.list.Lanes[0]|
    {
      nit.HasNext()
    }

    /** The next key in ascending order, or `Exhausted`. */
    method Next() returns (r: Result<int>)
      requires Valid()
      modifies nit
      ensures Valid()
      ensures old(nit.pos) < |nit.list.Lanes[0]| ==> r == Success(nit.list.Entries()[old(nit.pos)].0) && nit.pos == old(nit.pos) + 1
      ensures old(nit.pos) == |nit.list.Lanes[0]| ==> r == Failure(Exhausted) && nit.pos == old(nit.pos)
    {
      var n := nit.Next();
      r := if n.Success? then Success(n.value.key) else Failure(n.fault);
    }
  }

  /** The iterator over values (`values()`), a view of a node iterator. */
  class ValueIterator<V(0)> {
    const nit: NodeIterator<V>

    ghost predicate Valid()
      reads this, nit, nit.list
    {
      nit.Valid()
    }

    constructor (list: SkipList<V>)
      requires list.Valid()
      ensures fresh(nit) && Valid() && nit.list == list && nit.pos == 0
    {
      nit := new NodeIterator(list);
    }

    function HasNext(): (b: bool)
      reads this, nit, nit.list
      requires Valid()
      ensures b <==> nit.pos < |nit.list.Lanes[0]|
    {
      nit.HasNext()
    }

    /** The next value, in ascending order of keys, or `Exhausted`. */
    method Next() returns (r: Result<V>)
      requires Valid()
      modifies nit
      ensures Valid()
      ensures old(nit.pos) < |nit.list.Lanes[0]| ==> r == Success(nit.list.Entries()[old(nit.pos)].1) && nit.pos == old(nit.pos) + 1
      ensures old(nit.pos) == |nit.list.Lanes[0]| ==> r == Failure(Exhausted) && nit.pos == old(nit.pos)
    {
      var n := nit.Next();
      r := if n.Success? then Success(n.value.value) else Failure(n.fault);
    }
  }
}

=== FILE: sorted_map.dfy ===
/**
 The abstract view of a skip list: the ascending sequence of (key, value)
 entries of its level-0 chain, and the map that sequence denotes.
 */
module SortedMap {

  /** Keys strictly increase along the entries (so no key occurs twice). */
  ghost predicate StrictlyAscending<V>(e: seq<(int, V)>) {
    forall i, j :: 0 <= i < j < |e| ==> e[i].0 < e[j].0
  }

  /** The map denoted by a sequence of entries. */
  ghost function MapOf<V>(e: seq<(int, V)>): (m: map<int, V>) {
    if e == [] then map[] else MapOf(e[1..])[e[0].0 := e[0].1]
  }

  /** The entries with the one at position `p` taken out. */
  function Excise<T>(s: seq<T>, p: nat): (r: seq<T>)
    requires p < |s|
    ensures |r| == |s| - 1
    ensures forall j :: 0 <= j < p ==> r[j] == s[j]
    ensures forall j :: p <= j < |r| ==> r[j] == s[j + 1]
  {
    s[..p] + s[p + 1..]
  }

  /** The entries with `x` placed at position `p`. */
  function Insert<T>(s: seq<T>, p: nat, x: T): (r: seq<T>)
    requires p <= |s|
    ensures |r| == |s| + 1 && r[p] == x
    ensures forall j :: 0 <= j < p ==> r[j] == s[j]
    ensures forall j :: p < j < |r| ==> r[j] == s[j - 1]
  {
    s[..p] + [x] + s[p..]
  }

  /** A key is mapped exactly when some entry carries it. */
  lemma {:induction false} MapOfKeys<V>(e: seq<(int, V)>, k: int)
    ensures k in MapOf(e) <==> exists i :: 0 <= i < |e| && e[i].0 == k
  {
    if e != [] {
      MapOfKeys(e[1..], k);
      if k in MapOf(e[1..]) {
        var i :| 0 <= i < |e[1..]| && e[1..][i].0 == k;
        assert e[i + 1].0 == k;
      }
      if exists i :: 0 <= i < |e| && e[i].0 == k {
        var i :| 0 <= i < |e| && e[i].0 == k;
        if i > 0 {
          assert e[1..][i - 1].0 == k;
        }
      }
    }
  }

  /** In ascending entries, every entry is what the map says of its key. */
  lemma {:induction false} MapOfAt<V>(e: seq<(int, V)>, i: nat)
    requires StrictlyAscending(e) && i < |e|
    ensures e[i].0 in MapOf(e) && MapOf(e)[e[i].0] == e[i].1
  {
    if i > 0 {
      assert e[1..][i - 1] == e[i];
      MapOfAt(e[1..], i - 1);
    }
  }

  /** Ascending entries denote a map with one key per entry. */
  lemma {:induction false} MapOfSize<V>(e: seq<(int, V)>)
    requires StrictlyAscending(e)
    ensures |MapOf(e)| == |e|
  {
    if e != [] {
      MapOfSize(e[1..]);
      MapOfKeys(e[1..], e[0].0);
    }
  }

  /** Placing an entry for a new key anywhere adds that key to the map. */
  lemma {:induction false} MapOfInsert<V>(e: seq<(int, V)>, p: nat, k: int, v: V)
    requires p <= |e|
    requires forall i :: 0 <= i < |e| ==> e[i].0 != k
    ensures MapOf(Insert(e, p, (k, v))) == MapOf(e)[k := v]
  {
    var e' := Insert(e, p, (k, v));
    if p == 0 {
      assert e'[1..] == e;
    } else {
      assert e'[1..] == Insert(e[1..], p - 1, (k, v));
      MapOfInsert(e[1..], p - 1, k, v);
      assert e'[0] == e[0] && e[0].0 != k;
    }
  }

  /** Taking out the entry at `p` removes its key from the map. */
  lemma {:induction false} MapOfExcise<V>(e: seq<(int, V)>, p: nat)
    requires StrictlyAscending(e) && p < |e|
    ensures MapOf(Excise(e, p)) == MapOf(e) - {e[p].0}
  {
    if p == 0 {
      MapOfKeys(e[1..], e[0].0);
      assert Excise(e, p) == e[1..];
    } else {
      ExciseTail(e, p);
      MapOfExcise(e[1..], p - 1);
      RemoveUpdate(MapOf(e[1..]), e[p].0, e[0].0, e[0].1);
    }
  }

  /** Taking out an entry after the first one leaves the first in front of the
      tail with that entry taken out. */
  lemma ExciseTail<V>(e: seq<(int, V)>, p: nat)
    requires StrictlyAscending(e) && 0 < p < |e|
    ensures StrictlyAscending(e[1..]) && e[1..][p - 1] == e[p] && e[0].0 != e[p].0
    ensures Excise(e, p) == [e[0]] + Excise(e[1..], p - 1)
  {
  }

  /** Removing one key and binding another commute. */
  lemma RemoveUpdate<V>(m: map<int, V>, a: int, b: int, v: V)
    requires a != b
    ensures (m - {a})[b := v] == m[b := v] - {a}
  {
  }

  /** Replacing the value of the entry at `p` rebinds its key. */
  lemma {:induction false} MapOfReplace<V>(e: seq<(int, V)>, p: nat, v: V)
    requires StrictlyAscending(e) && p < |e|
    ensures MapOf(e[p := (e[p].0, v)]) == MapOf(e)[e[p].0 := v]
  {
    var e' := e[p := (e[p].0, v)];
    if p == 0 {
      assert e'[1..] == e[1..];
    } else {
      assert e'[1..] == e[1..][p - 1 := (e[p].0, v)];
      assert e[1..][p - 1] == e[p];
      MapOfReplace(e[1..], p - 1, v);
    }
  }

  /** An ascending sequence of entries is determined by the map it denotes:
      two of them denoting the same map hold the same entries in the same order. */
  lemma {:induction false} AscendingUnique<V>(e1: seq<(int, V)>, e2: seq<(int, V)>)
    requires StrictlyAscending(e1) && StrictlyAscending(e2)
    requires MapOf(e1) == MapOf(e2)
    ensures e1 == e2
  {
    if e1 == [] || e2 == [] {
      if e1 != [] {
        MapOfAt(e1, 0);
      } else if e2 != [] {
        MapOfAt(e2, 0);
      }
    } else {
      MapOfAt(e1, 0);
      MapOfAt(e2, 0);
      MapOfKeys(e2, e1[0].0);
      MapOfKeys(e1, e2[0].0);
      assert e1[0].0 == e2[0].0;
      assert e1[0] == e2[0];
      MapOfExcise(e1, 0);
      MapOfExcise(e2, 0);
      assert Excise(e1, 0) == e1[1..] && Excise(e2, 0) == e2[1..];
      AscendingUnique(e1[1..], e2[1..]);
    }
  }

  /** The split point of a search decides membership: if every entry before
      `p` has a smaller key and every entry from `p` on has a key no smaller
      than `k`, then `k` is mapped exactly when the entry at `p` carries it. */
  lemma SplitDecides<V>(e: seq<(int, V)>, p: nat, k: int)
    requires StrictlyAscending(e) && p <= |e|
    requires forall i :: 0 <= i < p ==> e[i].0 < k
    requires forall i :: p <= i < |e| ==> k <= e[i].0
    ensures k in MapOf(e) <==> p < |e| && e[p].0 == k
    ensures p < |e| && e[p].0 == k ==> MapOf(e)[k] == e[p].1
  {
    MapOfKeys(e, k);
    if p < |e| && e[p].0 == k {
      MapOfAt(e, p);
    }
  }
}
